=== FILE: README.md ===
# Word-embedding store and word2vec ingestion, modelled in Dafny

This project models the core of a small word-embedding library. The library keeps word
vectors in an embedded DuckDB table and fills that table from a word2vec text file. The model
covers two pieces, run one after the other in a single sequential system:

- **The vector store** (`Embedding` in `embeddings/embeddingDuck.py`). The table has a text
  primary key `word` and 300 real columns `d0`…`d299`. The store supports create-if-missing,
  all-or-nothing `insert_batch`, exact-key `lookup`, `__contains__`, `clear` and `__len__`. It is
  modelled as an immutable value, `Store.Table`, whose rows are a `map<string, seq<real>>`. A
  batch either commits as a whole or leaves the table unchanged. `Store.Step` packages the
  operations as a state machine.
- **The ingestion pass** (`GenericEmbedding.load_word2emb` in `embeddings/generic.py`). It reads
  the header `"<vocab_size> <vector_size>"` and caps the line count at 5000. It reads that many
  data lines, fails on a premature end of input or a wrong field count, and keeps the first
  occurrence of every word. It then appends the per-category average records and inserts
  everything once, as one batch. It is modelled as a fold over the file's lines. The fold threads
  the seen-set and the growing batch.

Modules, one file each:

| file | module | models |
|---|---|---|
| `wrappers.dfy` | `Wrappers` | `Option`, and `Result` standing for a raised exception |
| `decimal.dfy` | `Decimal` | `str(n)` for column names, `int(token)` for the header |
| `text.dfy` | `Text` | `bytes.rstrip()`, `str.split(" ")`, `str.split()`, `c in word` |
| `schema.dfy` | `Schema` | the CREATE column list, the INSERT placeholders, binding a row to columns |
| `store.dfy` | `Store` | the table and the `Embedding` operations |
| `categories.dfy` | `Categories` | the accumulators, the `#…UNK#` records, the dormant selection rule |
| `ingest.dfy` | `Ingest` | `load_word2emb` |
| `generic.dfy` | `Generic` | `GenericEmbedding.__init__` and `emb` |

Behaviour of the code worth stating explicitly:

- An existing table of any shape is kept as is (`create table if not exists`).
- Vectors are not checked against the table width before the insert. A non-empty vector of the
  wrong length fails inside the transaction; an empty vector fails earlier, at `emb[0]`, before
  the transaction starts and without the printed word list.
- The flush by batch size and the per-record category accumulation are commented out in the
  source. In the live code everything goes into one final batch, and every count stays 0.
- The synthetic `#…UNK#` records are not deduplicated. They are appended after the seen-set check
  and inserted in the same batch.
- The EOF and field-count errors are raised before anything is committed, because the single
  insert comes after the loop.

Inputs the model takes as parameters: the file is the sequence of lines `readline()` returns,
header first, with `""` meaning end of input. `float()` is an abstract partial function
`string -> Option<real>`. The reading loop is stated over any line parser
(`Ingest.LineParser`). `Ingest.LineParserFor` is the step the source performs:
`rstrip`, `split(" ")`, the field count and `float`.

## Model

| member | source | states |
|---|---|---|
| Decimal.ShowInjective | embeddings/embeddingDuck.py:46 | `str(i)` is injective, so `'d' + str(i)` gives distinct names for distinct column indices |
| Decimal.ParseShowInt | embeddings/generic.py:59 | `int(str(i)) == i` for every integer, so a written header count reads back unchanged |
| Decimal.ParseInt | embeddings/generic.py:59 | `int(token)` succeeds exactly on an optional sign followed by decimal digits; it is non-negative unless it starts with `-` |
| Text.RStrip | embeddings/generic.py:69 | `rstrip()` returns the longest prefix that does not end in ASCII whitespace; only whitespace is removed |
| Text.SplitLength | embeddings/generic.py:69-71 | `split(" ")` gives one more field than there are spaces, so the field-count check counts spaces |
| Text.JoinSplit | embeddings/generic.py:69 | joining the fields of `split(" ")` with single spaces gives back the line |
| Text.SplitJoin | embeddings/generic.py:69 | splitting a space-join of space-free fields gives back exactly those fields |
| Text.WordsJoin | embeddings/generic.py:58-59 | `split()` of non-empty words joined by single spaces, plus trailing whitespace, returns those words |
| Text.Split | embeddings/generic.py:69 | `split(" ")` yields at least one field, and no field contains the separator |
| Text.Words | embeddings/generic.py:59 | `split()` yields non-empty tokens without whitespace; input starting with a non-space character starts its first token with that character |
| Schema.SchemaShape | embeddings/embeddingDuck.py:46-47 | the table is `word` (text primary key) followed by exactly n real columns `d0`…`d{n-1}` in ascending order; no column name repeats |
| Schema.PlaceholderCount | embeddings/embeddingDuck.py:82 | the INSERT's VALUES list has exactly 1 + n placeholders |
| Schema.Binarize | embeddings/embeddingDuck.py:81 | `(word, emb[0]) + tuple(emb[1:])` is the word followed by every component, in order |
| Schema.RowRoundTrip | embeddings/embeddingDuck.py:124-126 | a row bound positionally to `word, d0..d{n-1}`, then read with `select d0..d{n-1}`, yields exactly the components in order, and `word` holds the key |
| Store.InitializeDb | embeddings/embeddingDuck.py:46-48 | a missing table is created empty and well-formed with 300 vector columns; an existing table is returned untouched, so re-initialising is a no-op |
| Store.Execute | embeddings/embeddingDuck.py:85 | a successful `executemany` keeps every stored key and adds one row per batch record; an arity failure names a value count other than the placeholder count |
| Store.ExecuteOk | embeddings/embeddingDuck.py:85 | `executemany` succeeds exactly when every vector fits the placeholders and every key is new and unique; on success the rows are the old ones plus the batch |
| Store.ExecuteCause | embeddings/embeddingDuck.py:85 | a failed `executemany` names an offending row: a vector whose value count misses the placeholders, or a key already stored or repeated in the batch |
| Store.InsertableSplit | embeddings/embeddingDuck.py:83-86 | a batch is insertable exactly when its first part is, and the second part is insertable into the table after the first |
| Store.InsertBatch | embeddings/embeddingDuck.py:80-89 | commits exactly when every vector is non-empty and of the table width and every key is fresh and unique; a failure inside the transaction reports the batch's words |
| Store.InsertBatchEffect | embeddings/embeddingDuck.py:83-86 | after a commit: the keys are the old keys plus the batch's; each batch key maps to its vector; other rows are unchanged; `len` grows by the batch size; rows keep the width |
| Store.InsertThenLookup | embeddings/embeddingDuck.py:112-126 | after a commit, `lookup` of a batch word returns its vector, and `lookup` of any other word is unchanged |
| Store.Lookup | embeddings/embeddingDuck.py:112-126 | `lookup` returns a vector exactly for stored words, that vector is the stored one, and on a well-formed table that vector has one component per column |
| Store.Contains | embeddings/embeddingDuck.py:91-101 | `w in store` holds exactly for stored words |
| Store.Len | embeddings/embeddingDuck.py:51-60 | `len` is 0 exactly when the table holds no row |
| Store.Clear | embeddings/embeddingDuck.py:103-110 | `clear` keeps the table's shape and removes every row |
| Store.StoredRowIsSelected | embeddings/embeddingDuck.py:81-126 | a stored pair bound to the created columns as `insert_batch` binds it and read with `lookup`'s SELECT gives the word in the key column and exactly the cells of `Lookup` |
| Store.InsertOneRoundTrip | embeddings/embeddingDuck.py:62-89 | inserting one fresh, well-sized record commits, `lookup` returns its vector, and `len` grows by one |
| Store.ConflictFailsBatch | embeddings/embeddingDuck.py:83-89 | a batch with a key already stored, or a key twice, fails as a whole |
| Store.DimensionMismatchFailsBatch | embeddings/embeddingDuck.py:81-89 | a batch with a vector of the wrong length fails as a whole |
| Store.LookupMissing | embeddings/embeddingDuck.py:123-126 | a word never stored looks up as `None` and is not contained |
| Store.ContainsIffLookup | embeddings/embeddingDuck.py:91-101 | `w in store` holds exactly when `lookup(w)` is not `None`, that is, exactly for stored words |
| Store.ClearEmpties | embeddings/embeddingDuck.py:103-110 | after `clear`, `len` is 0 and every lookup is `None`; the table shape stays |
| Store.BatchSizeIrrelevant | embeddings/generic.py:94-99 | the disabled flush would give the same table as one transaction: if either commits the non-empty batch, both give the same table |
| Store.InsertInBatches | embeddings/generic.py:94-99 | the disabled flush leaves an empty batch's table unchanged and keeps the table's width |
| Store.Step | embeddings/embeddingDuck.py:51-126 | a failed request leaves the table unchanged; queries never change it; `lookup`, `in` and `len` reply with the stored vector (or `None`), membership and the row count; clear empties it; a committed insert adds exactly the batch size; the width invariant is preserved |
| Categories.InitAccumulators | embeddings/generic.py:21-23 | there is one accumulator for `'word'` and one per label, and each starts with count 0 and a zero sum of `d_emb` components |
| Categories.Mean | embeddings/generic.py:103 | each mean component times the count equals the summed component |
| Categories.CategoryRecords | embeddings/generic.py:101-104 | a `#<c>UNK#` record is produced exactly for the listed labels with a positive count, with the mean as its vector |
| Categories.Synthetic | embeddings/generic.py:101-108 | the appended records are exactly the positive-count category averages plus `#WORD/UNK#` when the default count is positive |
| Categories.NoSyntheticWhenEmpty | embeddings/generic.py:101-108 | with the counts still 0, as in the live pass, no average record is appended |
| Categories.SyntheticAsWritten | embeddings/generic.py:101-108 | the finalisation as written returns the intended records or fails with `UnboundLocalError`; it fails exactly when no label is configured and the default count is positive, where the intended result holds the `#WORD/UNK#` average |
| Categories.UnboundLoopVariableExample | embeddings/generic.py:101-108 | with no labels and one default-category vector, the block as written fails, while the intended result is the single `#WORD/UNK#` average |
| Categories.LivePassFinalises | embeddings/generic.py:101-108 | with the counts at 0, as in the live pass, the finalisation as written succeeds and adds nothing |
| Categories.DefaultAverageAppended | embeddings/generic.py:106-107 | the intended finalisation ends with the `#WORD/UNK#` average whenever the default count is positive |
| Categories.SelectCategory | embeddings/generic.py:84-92 | the chosen category is either `'word'` or a listed label that occurs in the word |
| Categories.SelectCategoryRule | embeddings/generic.py:84-92 | exactly one matching list entry selects that label; no match, or two matching entries, selects `'word'` |
| Categories.Matching | embeddings/generic.py:84 | the matching list holds exactly the labels that occur in the word, and no more entries than the labels |
| Categories.Accumulate | embeddings/generic.py:84-92 | one step keeps an accumulator for `'word'` and every label, the same keys, and every sum the vector length |
| Categories.AccumulateAll | embeddings/generic.py:83-92 | accumulating a run of records keeps the accumulator keys and every sum the vector length |
| Categories.AccumulateAllTotals | embeddings/generic.py:83-92 | record-by-record accumulation gives each category its count plus the number of records selecting it, and its sum plus their component-wise sum |
| Categories.AverageIsMean | embeddings/generic.py:101-108 | from fresh accumulators, a category's average record is the arithmetic mean of exactly the records that selected it |
| Categories.AveragesExample | embeddings/generic.py:83-108 | label `CAT/` with CAT/a→[2,0], CAT/b→[4,0], plain→[0,10] yields `#CAT/UNK#`→[3,0] and `#WORD/UNK#`→[0,10] |
| Ingest.ParseHeader | embeddings/generic.py:58-59 | the header is accepted exactly when `split()` yields two tokens that `int()` accepts |
| Ingest.HeaderRoundTrip | embeddings/generic.py:58-59 | the header `"<v> <d>\n"` reads back as `(v, d)` for any integers |
| Ingest.LinesToRead | embeddings/generic.py:53-64 | the loop reads `min(vocab_size, 5000)` lines, never more than 5000, and none for a non-positive count |
| Ingest.ParseComponents | embeddings/generic.py:74 | components parse exactly when `float` accepts every token; they are those numbers in order; a failure names a rejected token |
| Ingest.ParseLine | embeddings/generic.py:69-74 | a line is accepted exactly when its stripped text has `vector_size` spaces and `float` accepts every field after the first; it fails with `ValueError(line_no)` for the field count exactly when the space count is wrong; on success the key is the first field and component i is `float` of field i + 1 |
| Ingest.LineRoundTrip | embeddings/generic.py:69-74 | a record written as `"<word> <t0> … <tn-1>"` followed by any run of trailing whitespace (`"\n"`, `"\r\n"`, none) parses back to that word and the numbers its tokens denote |
| Ingest.LineParserForReports | embeddings/generic.py:69-74 | parsing a data line fails only with a field-count or number error, and the error names that line |
| Ingest.ReadData | embeddings/generic.py:65-74 | reading data line l fails with `EOFError` exactly when the input is exhausted there, otherwise with the line parser's error for line l |
| Ingest.ParseAll | embeddings/generic.py:64-74 | reading lines k..n-1 without dedup yields exactly n-k records |
| Ingest.ParseAllOk | embeddings/generic.py:64-74 | reading succeeds exactly when every data line in range is present and parses |
| Ingest.ParseAllValues | embeddings/generic.py:64-74 | the i-th record read is the parse of data line i |
| Ingest.ParseAllEof | embeddings/generic.py:64-67 | `EOFError` names a data line in range that is missing, and every earlier line was good |
| Ingest.ParseAllStopsAtEof | embeddings/generic.py:64-67 | when the lines before data line m are good and line m is missing, reading fails with `EOFError` for line m |
| Ingest.TruncatedInputFails | embeddings/generic.py:64-67 | a header followed by fewer data lines than required always fails, with a line error; when every data line present is good, the error is `EOFError` for the first missing line |
| Ingest.LoadStopsAtEof | embeddings/generic.py:46-67 | a pass whose header promises more lines than are present, with every earlier line good, fails with `EOFError` for the first missing line |
| Ingest.TruncatedExample | embeddings/generic.py:46-67 | `"2 2\nfoo 1.0 2.0\n"` promises two data lines but has one: loading fails with `EOFError` for data line 1 |
| Ingest.Dedup | embeddings/generic.py:76-80 | the kept records have pairwise-distinct words, each drawn from the input and not seen before |
| Ingest.DedupKeepsFirst | embeddings/generic.py:76-80 | a record is kept exactly when it is the first record for its word and the word was not already seen |
| Ingest.DedupWords | embeddings/generic.py:76-80 | every input word not already seen appears in the batch, and no other word does |
| Ingest.DedupKeepsOrder | embeddings/generic.py:76-80 | the batch lists the kept records in input order (a subsequence of the input) |
| Ingest.DedupOfDistinct | embeddings/generic.py:76-80 | records whose words are already distinct and unseen pass through unchanged |
| Ingest.DedupIdempotent | embeddings/generic.py:76-80 | deduplicating twice equals deduplicating once |
| Ingest.ReadRecordsIsParseThenDedup | embeddings/generic.py:64-80 | the interleaved read/skip/append loop equals parsing every line and then deduplicating: the same error or the same batch |
| Ingest.ReadRecords | embeddings/generic.py:64-80 | the loop only appends: on success the batch built so far is a prefix of the result |
| Ingest.LoadEffect | embeddings/generic.py:46-111 | a successful pass read all `min(vocab_size, 5000)` lines; each word read now maps to its first line's vector and other words are unchanged; `len` grows by the number of distinct words; nothing is inserted when no line was read |
| Ingest.WidthMismatchFailsInsert | embeddings/generic.py:110-111 | when the header's `vector_size` differs from the table width, a pass that read a line fails in `insert_batch` |
| Ingest.LoadBatch | embeddings/generic.py:101-111 | a successful pass is one `insert_batch` of the deduplicated records, or no insert when there are none |
| Ingest.LoadWord2Emb | embeddings/generic.py:46-111 | a successful pass keeps the table's width and every stored word; a header that is not two integers fails with `ValueError` before anything is read |
| Ingest.LoadOfRecords | embeddings/generic.py:101-111 | with the header and records known, the pass is a single `insert_batch` of exactly those records, which for an empty read leaves the table as it was |
| Ingest.LoadOfFailingRecords | embeddings/generic.py:101-111 | when the records read are rejected by `insert_batch`, the pass fails with exactly that insert's error |
| Ingest.EmptyVectorExample | embeddings/embeddingDuck.py:80-81 | a file with header `1 0` and the line `foo` fails with the empty-vector error for row 0, raised at `emb[0]` before the transaction |
| Ingest.TwoLinesSameWord | embeddings/generic.py:76-80 | two good lines with the same word keep only the first line's record |
| Ingest.RepeatedWordExample | embeddings/generic.py:46-111 | `"2 2\nfoo 1.0 2.0\nfoo 9.0 9.0\n"` into an empty store of width 2 (the D = 2 instance of the width-parameterised table) stores `foo` once, as [1.0, 2.0] |
| Generic.Init | embeddings/generic.py:12-40 | a negative `d_emb` raises `ValueError` in `zeros`, and then a bad `default` raises `AssertionError`, both before the table is touched; otherwise the table exists afterwards; without `reset` nothing else happens; a failed load after `reset` leaves the table empty |
| Generic.NegativeDimensionFirst | embeddings/generic.py:12-26 | a negative `d_emb` is reported even when `default` is also invalid, and the table is left untouched |
| Generic.Emb | embeddings/generic.py:42-44 | `emb` returns the stored vector exactly for stored words and `None` otherwise, whatever `default` is |
| Generic.ResetHoldsExactlyTheFile | embeddings/generic.py:37-40 | after a successful reset, the table holds exactly the words of the lines read, each with its first line's vector, and nothing else |

## Findings

| source | as written | input that shows it | evidently intended | confidence | as-written member | corrected member |
|---|---|---|---|---|---|---|
| embeddings/generic.py:108 | the `#WORD/UNK#` message calls `.format(c)` on the loop variable of the label loop at line 101; that name is unbound when no label is configured, so the block raises `UnboundLocalError` before the insert | no labels, with a positive count under `'word'` (reachable only once the accumulation at lines 83-92 is enabled) | print the message and go on to insert the batch with the `#WORD/UNK#` average | medium, not executed | Categories.SyntheticAsWritten, Categories.UnboundLoopVariableExample | Categories.Synthetic, Categories.DefaultAverageAppended |

## Left out

- DuckDB, SQL text, connections and cursors. The table is a map, and `lookup` is exact-key map
  access. The real query puts the word inside quotes without escaping it, so a word containing
  `'` makes the real query malformed or match something else. Exact-key equality does not model
  that.
- The missing ROLLBACK. After a failed batch the source issues no ROLLBACK, so the connection is
  left inside the aborted transaction. The model only states that the failed batch commits nothing.
- Which error the engine reports when a batch has several bad rows. `Store.Execute` reports the
  first bad row in batch order.
- The printed list of attempted words. It is modelled as the `attempted` field of the error, not
  as output.
- `Embedding.path`, `makedirs` and the environment lookup. These are file-system wrappers.
- gensim's `utils.open` and UTF-8 decoding. The input is already-decoded lines, so
  `UnicodeDecodeError` is not modelled.
- `float()` parsing and numpy arrays. `float` is an abstract parameter, and numbers are Dafny
  `real`. Float rounding in `sum / cnt` is not modelled.
- Decimal.ParseInt: does not accept the underscores (`1_000`) or non-ASCII digits that Python's
  `int()` accepts.
- Text.IsSpace: follows `str.isspace()` for the characters listed. It was not checked against
  every Unicode version.
- Timing, printing and both `__main__` drivers. They have no effect on the stored data.
- The timer read at the start of the pass (`embeddings/generic.py:51`). It refers to `time`,
  which is imported only under `__main__` (line 114). Imported as a library, the pass would stop
  there with `NameError`. The model assumes the name is bound.
- `embeddings/embedding.py`, the base class that `generic.py` actually imports, is not part of
  this model. It is taken to behave like `Embedding` in `embeddingDuck.py`.
- The out-of-vocabulary `default` policy beyond its validity check. `emb` ignores it, and the
  random policy is never applied.
- Dimensions. The table is parameterised by its width D, and `InitializeDb` creates it with 300
  columns. The source never compares D with the header's `vector_size` or with `d_emb`. The
  dormant accumulation (`Categories.Accumulate`) requires the vector length to equal the sum
  length. Otherwise numpy would broadcast or raise.
- Float32 storage. The vector columns are declared `REAL` (`embeddings/embeddingDuck.py:46`),
  which DuckDB stores as a 4-byte float, so `lookup` returns each component rounded to float32.
  The model stores `real` values exactly. The read-back statements therefore hold only up to that
  rounding: `Store.InsertThenLookup`, `Store.InsertOneRoundTrip`, `Store.StoredRowIsSelected`,
  `Schema.RowRoundTrip`, `Ingest.LoadEffect` and `Generic.ResetHoldsExactlyTheFile`.
- Tables of another width. The INSERT always has 301 placeholders
  (`embeddings/embeddingDuck.py:82`), and `lookup` always selects `d0 .. d299` (line 124),
  whatever shape a kept table has. The model uses the table's own `width` for both. For a table
  that `initialize_db` kept with a width other than 300, the model accepts batches and answers
  lookups where the engine would reject the statement. For the table `InitializeDb(None)`
  creates, the two agree. Examples such as `Ingest.RepeatedWordExample` use small widths as
  instances of the width-parameterised store.
- Store.InsertInBatches: returns only the failing slice's error when a later slice fails. The
  flush would leave the earlier slices committed, and that partly filled table is not
  returned. The flush is commented out in the source (`embeddings/generic.py:94-99`).
- The line index carried by `UnexpectedEof` and `BadNumber`. The source's messages do not include
  it. The model keeps it to say where the loop stopped.

=== FILE: categories.dfy ===
/**
 * Per-category running averages of the ingestion pass: the accumulators set up by
 * `GenericEmbedding.__init__`, the `#<c>UNK#` / `#WORD/UNK#` records appended at the end of
 * `load_word2emb`, and the category-selection and accumulation step that the source keeps
 * commented out (modelled separately, never called by the live pass).
 */
module Categories {
  import opened Text
  import Store
  import opened Wrappers

  /** Count and component-wise sum of the vectors assigned to one category. */
  datatype Acc = Acc(cnt: nat, sum: seq<real>)

  /** Label of the default category. */
  const Default: string := "word"

  /** Key of the default category's average record. */
  const WordUnkKey: string := "#WORD/UNK#"

  /** `'#{}UNK#'.format(c)`. */
  function UnkKey(c: string): string {
    "#" + c + "UNK#"
  }

  /** `zeros(n)`. */
  function Zeros(n: nat): (z: seq<real>)
    ensures |z| == n && forall i :: 0 <= i < n ==> z[i] == 0.0
  {
    seq(n, _ => 0.0)
  }

  /** Accumulators keyed by the default label and every configured label. */
  predicate Covers(acc: map<string, Acc>, categories: seq<string>) {
    Default in acc && forall k :: 0 <= k < |categories| ==> categories[k] in acc
  }

  /**
   * `avg_cnt = {'word': {'cnt': 0, 'sum': zeros(d_emb)}}`, then one such entry per label:
   * every accumulator starts empty, with a zero sum of `d_emb` components.
   */
  function InitAccumulators(categories: seq<string>, dEmb: nat): (acc: map<string, Acc>)
    ensures Covers(acc, categories)
    ensures forall c :: c in acc <==> c == Default || c in categories
    ensures forall c :: c in acc ==> acc[c].cnt == 0 && acc[c].sum == Zeros(dEmb)
  {
    map c | c in Labels(categories) :: Acc(0, Zeros(dEmb))
  }

  /** The keys of `avg_cnt`: the default label and every configured label. */
  function Labels(categories: seq<string>): set<string> {
    {Default} + (set k | 0 <= k < |categories| :: categories[k])
  }

  /** `sum / cnt`, component-wise. */
  function Mean(a: Acc): (m: seq<real>)
    requires a.cnt > 0
    ensures |m| == |a.sum|
    ensures forall i :: 0 <= i < |m| ==> m[i] * (a.cnt as real) == a.sum[i]
  {
    seq(|a.sum|, (i: int) requires 0 <= i < |a.sum| => a.sum[i] / (a.cnt as real))
  }

  /** `for c in self.categories: if cnt > 0: batch.append(('#{c}UNK#', sum / cnt))`, in list order. */
  function CategoryRecords(categories: seq<string>, acc: map<string, Acc>): (rs: seq<Store.Record>)
    requires forall k :: 0 <= k < |categories| ==> categories[k] in acc
    ensures |rs| <= |categories|
    ensures forall r :: r in rs <==>
              exists k :: 0 <= k < |categories| && acc[categories[k]].cnt > 0
                          && r == Store.Record(UnkKey(categories[k]), Mean(acc[categories[k]]))
  {
    if |categories| == 0 then []
    else
      var c := categories[0];
      var rest := CategoryRecords(categories[1..], acc);
      assert forall k :: 1 <= k < |categories| ==> categories[k] == categories[1..][k - 1];
      (if acc[c].cnt > 0 then [Store.Record(UnkKey(c), Mean(acc[c]))] else []) + rest
  }

  /** The records appended after the data lines: per-category averages, then the default's. */
  function Synthetic(categories: seq<string>, acc: map<string, Acc>): (rs: seq<Store.Record>)
    requires Covers(acc, categories)
    ensures forall r :: r in rs <==>
              || (exists k :: 0 <= k < |categories| && acc[categories[k]].cnt > 0
                              && r == Store.Record(UnkKey(categories[k]), Mean(acc[categories[k]])))
              || (acc[Default].cnt > 0 && r == Store.Record(WordUnkKey, Mean(acc[Default])))
  {
    CategoryRecords(categories, acc)
      + (if acc[Default].cnt > 0 then [Store.Record(WordUnkKey, Mean(acc[Default]))] else [])
  }

  /** With every count still 0, as in the live pass, no average record is produced. */
  lemma NoSyntheticWhenEmpty(categories: seq<string>, dEmb: nat)
    ensures Synthetic(categories, InitAccumulators(categories, dEmb)) == []
  {
    var acc := InitAccumulators(categories, dEmb);
    NoCategoryRecords(categories, acc);
  }

  lemma {:induction false} NoCategoryRecords(categories: seq<string>, acc: map<string, Acc>)
    requires forall k :: 0 <= k < |categories| ==> categories[k] in acc && acc[categories[k]].cnt == 0
    ensures CategoryRecords(categories, acc) == []
  {
    if |categories| > 0 {
      assert forall k :: 0 <= k < |categories| - 1 ==> categories[1..][k] == categories[k + 1];
      NoCategoryRecords(categories[1..], acc);
    }
  }

  /** Why the finalisation block can stop before the insert. */
  datatype FinaliseError = UnboundLoopVariable

  /**
   * The finalisation block as written: the message printed after appending `#WORD/UNK#`
   * formats the loop variable `c` of the label loop, which is unbound when no label is
   * configured, so that path raises `UnboundLocalError` instead of returning the records.
   */
  function SyntheticAsWritten(categories: seq<string>, acc: map<string, Acc>): (r: Result<seq<Store.Record>, FinaliseError>)
    requires Covers(acc, categories)
    ensures r.Ok? ==> r.value == Synthetic(categories, acc)
    ensures r.Err? <==> |categories| == 0 && acc[Default].cnt > 0
    ensures r.Err? ==> acc[Default].cnt > 0 && Store.Record(WordUnkKey, Mean(acc[Default])) in Synthetic(categories, acc)
  {
    if acc[Default].cnt > 0 && |categories| == 0 then Err(UnboundLoopVariable)
    else Ok(Synthetic(categories, acc))
  }

  /**
   * No labels and one vector counted under the default category: the block as written
   * fails, while the intended result is the single `#WORD/UNK#` average.
   */
  lemma UnboundLoopVariableExample(acc: map<string, Acc>, v: real)
    requires acc == map[Default := Acc(1, [v])]
    ensures SyntheticAsWritten([], acc).Err?
    ensures Synthetic([], acc) == [Store.Record(WordUnkKey, [v])]
  {
    var m := Mean(acc[Default]);
    assert m[0] * 1.0 == v;
    assert m == [v];
    assert CategoryRecords([], acc) == [];
  }

  /** With the counts still 0, as in the live pass, the defect is never reached. */
  lemma LivePassFinalises(categories: seq<string>, dEmb: nat)
    ensures SyntheticAsWritten(categories, InitAccumulators(categories, dEmb)) == Ok([])
  {
    NoSyntheticWhenEmpty(categories, dEmb);
  }

  /** The intended finalisation appends the default average whenever its count is positive. */
  lemma DefaultAverageAppended(categories: seq<string>, acc: map<string, Acc>)
    requires Covers(acc, categories) && acc[Default].cnt > 0
    ensures Synthetic(categories, acc)[|Synthetic(categories, acc)| - 1] == Store.Record(WordUnkKey, Mean(acc[Default]))
  {
  }

  // ---- The commented-out per-record accumulation ----

  /** `[c for c in self.categories if c in word]`. */
  function Matching(categories: seq<string>, word: string): (ms: seq<string>)
    ensures |ms| <= |categories|
    ensures forall m :: m in ms <==> m in categories && IsSubstring(m, word)
  {
    if |categories| == 0 then []
    else
      assert forall m :: m in categories <==> m == categories[0] || m in categories[1..];
      (if IsSubstring(categories[0], word) then [categories[0]] else []) + Matching(categories[1..], word)
  }

  /** The label a word is counted under: its one matching label, otherwise the default. */
  function SelectCategory(categories: seq<string>, word: string): (c: string)
    ensures c == Default || (c in categories && IsSubstring(c, word))
  {
    var ms := Matching(categories, word);
    if |ms| == 1 then ms[0] else Default
  }

  lemma {:induction false} MatchingNone(categories: seq<string>, word: string)
    requires forall k :: 0 <= k < |categories| ==> !IsSubstring(categories[k], word)
    ensures Matching(categories, word) == []
  {
    if |categories| > 0 {
      assert forall k :: 0 <= k < |categories| - 1 ==> categories[1..][k] == categories[k + 1];
      MatchingNone(categories[1..], word);
    }
  }

  lemma {:induction false} MatchingOne(categories: seq<string>, word: string, i: nat)
    requires i < |categories| && IsSubstring(categories[i], word)
    requires forall k :: 0 <= k < |categories| && k != i ==> !IsSubstring(categories[k], word)
    ensures Matching(categories, word) == [categories[i]]
  {
    assert forall k :: 0 <= k < |categories| - 1 ==> categories[1..][k] == categories[k + 1];
    if i == 0 {
      MatchingNone(categories[1..], word);
    } else {
      MatchingOne(categories[1..], word, i - 1);
    }
  }

  lemma {:induction false} MatchingTwo(categories: seq<string>, word: string, i: nat, j: nat)
    requires i < j < |categories|
    requires IsSubstring(categories[i], word) && IsSubstring(categories[j], word)
    ensures |Matching(categories, word)| >= 2
  {
    assert forall k :: 0 <= k < |categories| - 1 ==> categories[1..][k] == categories[k + 1];
    if i == 0 {
      MatchingAtLeastOne(categories[1..], word, j - 1);
    } else {
      MatchingTwo(categories[1..], word, i - 1, j - 1);
    }
  }

  lemma {:induction false} MatchingAtLeastOne(categories: seq<string>, word: string, j: nat)
    requires j < |categories| && IsSubstring(categories[j], word)
    ensures |Matching(categories, word)| >= 1
  {
    if j > 0 {
      assert categories[1..][j - 1] == categories[j];
      MatchingAtLeastOne(categories[1..], word, j - 1);
    }
  }

  /**
   * The selection rule: a word containing exactly one listed label (counted by list
   * position, so a label listed twice counts twice) goes to that label; a word containing
   * none, or several, goes to the default category.
   */
  lemma SelectCategoryRule(categories: seq<string>, word: string)
    ensures forall i :: 0 <= i < |categories| && IsSubstring(categories[i], word)
              && (forall k :: 0 <= k < |categories| && k != i ==> !IsSubstring(categories[k], word))
              ==> SelectCategory(categories, word) == categories[i]
    ensures (forall k :: 0 <= k < |categories| ==> !IsSubstring(categories[k], word))
              ==> SelectCategory(categories, word) == Default
    ensures forall i, j :: 0 <= i < j < |categories| && IsSubstring(categories[i], word) && IsSubstring(categories[j], word)
              ==> SelectCategory(categories, word) == Default
  {
    forall i | 0 <= i < |categories| && IsSubstring(categories[i], word)
               && (forall k :: 0 <= k < |categories| && k != i ==> !IsSubstring(categories[k], word))
      ensures SelectCategory(categories, word) == categories[i]
    {
      MatchingOne(categories, word, i);
    }
    if forall k :: 0 <= k < |categories| ==> !IsSubstring(categories[k], word) {
      MatchingNone(categories, word);
    }
    forall i, j | 0 <= i < j < |categories| && IsSubstring(categories[i], word) && IsSubstring(categories[j], word)
      ensures SelectCategory(categories, word) == Default
    {
      MatchingTwo(categories, word, i, j);
    }
  }

  /** Component-wise `a + b`. */
  function Add(a: seq<real>, b: seq<real>): (s: seq<real>)
    requires |a| == |b|
    ensures |s| == |a| && forall i :: 0 <= i < |s| ==> s[i] == a[i] + b[i]
  {
    seq(|a|, (i: int) requires 0 <= i < |a| => a[i] + b[i])
  }

  /** Every accumulator sum has `d` components. */
  predicate Sized(acc: map<string, Acc>, d: nat) {
    forall c :: c in acc ==> |acc[c].sum| == d
  }

  /** `avg_cnt[cat]['cnt'] += 1; avg_cnt[cat]['sum'] += vec` for the selected category. */
  function Accumulate(acc: map<string, Acc>, categories: seq<string>, rec: Store.Record): (acc': map<string, Acc>)
    requires Covers(acc, categories) && Sized(acc, |rec.vec|)
    ensures Covers(acc', categories) && Sized(acc', |rec.vec|) && acc'.Keys == acc.Keys
  {
    var c := SelectCategory(categories, rec.word);
    acc[c := Acc(acc[c].cnt + 1, Add(acc[c].sum, rec.vec))]
  }

  /** Accumulation over the accepted records, in order. */
  function AccumulateAll(acc: map<string, Acc>, categories: seq<string>, recs: seq<Store.Record>, d: nat): (acc': map<string, Acc>)
    requires Covers(acc, categories) && Sized(acc, d)
    requires forall i :: 0 <= i < |recs| ==> |recs[i].vec| == d
    ensures Covers(acc', categories) && Sized(acc', d) && acc'.Keys == acc.Keys
    decreases |recs|
  {
    if |recs| == 0 then acc
    else AccumulateAll(Accumulate(acc, categories, recs[0]), categories, recs[1..], d)
  }

  /** The records a category collects: those whose word selects it. */
  function Members(categories: seq<string>, recs: seq<Store.Record>, c: string): (ms: seq<Store.Record>)
    ensures |ms| <= |recs|
    ensures forall r :: r in ms <==> r in recs && SelectCategory(categories, r.word) == c
  {
    if |recs| == 0 then []
    else (if SelectCategory(categories, recs[0].word) == c then [recs[0]] else []) + Members(categories, recs[1..], c)
  }

  /** A category's members have the length of the records they were drawn from. */
  lemma MembersSized(categories: seq<string>, recs: seq<Store.Record>, c: string, d: nat)
    requires forall i :: 0 <= i < |recs| ==> |recs[i].vec| == d
    ensures forall i :: 0 <= i < |Members(categories, recs, c)| ==> |Members(categories, recs, c)[i].vec| == d
  {
    var ms := Members(categories, recs, c);
    forall i | 0 <= i < |ms| ensures |ms[i].vec| == d
    {
      assert ms[i] in recs;
    }
  }

  /** Component-wise sum of `d`-component vectors. */
  function SumOf(recs: seq<Store.Record>, d: nat): (s: seq<real>)
    requires forall i :: 0 <= i < |recs| ==> |recs[i].vec| == d
    ensures |s| == d
  {
    if |recs| == 0 then Zeros(d) else Add(recs[0].vec, SumOf(recs[1..], d))
  }

  /** Counting one more member first, then the rest, gives the totals over all of them. */
  lemma TotalsStep(a: Acc, r0: Store.Record, ms: seq<Store.Record>, d: nat)
    requires |a.sum| == d && |r0.vec| == d
    requires forall i :: 0 <= i < |ms| ==> |ms[i].vec| == d
    ensures forall i :: 0 <= i < |[r0] + ms| ==> |([r0] + ms)[i].vec| == d
    ensures Acc(a.cnt + 1 + |ms|, Add(Add(a.sum, r0.vec), SumOf(ms, d)))
            == Acc(a.cnt + |[r0] + ms|, Add(a.sum, SumOf([r0] + ms, d)))
  {
    assert ([r0] + ms)[1..] == ms;
    assert SumOf([r0] + ms, d) == Add(r0.vec, SumOf(ms, d));
    AddAssoc(a.sum, r0.vec, SumOf(ms, d));
  }

  lemma AddAssoc(a: seq<real>, b: seq<real>, c: seq<real>)
    requires |a| == |b| == |c|
    ensures Add(Add(a, b), c) == Add(a, Add(b, c))
  {
  }

  /** One accumulation step touches only the selected category. */
  lemma AccumulateAt(acc: map<string, Acc>, categories: seq<string>, rec: Store.Record, c: string)
    requires Covers(acc, categories) && Sized(acc, |rec.vec|) && c in acc
    ensures Accumulate(acc, categories, rec)[c]
              == if SelectCategory(categories, rec.word) == c then Acc(acc[c].cnt + 1, Add(acc[c].sum, rec.vec)) else acc[c]
  {
  }

  /**
   * Accumulating record by record leaves every category with its starting count plus the
   * number of records that select it, and its starting sum plus their component-wise sum.
   */
  lemma {:induction false} AccumulateAllTotals(acc: map<string, Acc>, categories: seq<string>, recs: seq<Store.Record>, d: nat, c: string)
    requires Covers(acc, categories) && Sized(acc, d) && c in acc
    requires forall i :: 0 <= i < |recs| ==> |recs[i].vec| == d
    ensures AccumulateAll(acc, categories, recs, d)[c]
              == Acc(acc[c].cnt + |Members(categories, recs, c)|, Add(acc[c].sum, SumOf(Members(categories, recs, c), d)))
    decreases |recs|
  {
    if |recs| == 0 {
      assert Add(acc[c].sum, Zeros(d)) == acc[c].sum;
    } else {
      var r0, rest := recs[0], recs[1..];
      assert forall i :: 0 <= i < |rest| ==> rest[i] == recs[i + 1];
      var acc1 := Accumulate(acc, categories, r0);
      AccumulateAt(acc, categories, r0, c);
      AccumulateAllTotals(acc1, categories, rest, d, c);
      var ms := Members(categories, rest, c);
      MembersSized(categories, rest, c, d);
      assert AccumulateAll(acc, categories, recs, d) == AccumulateAll(acc1, categories, rest, d);
      if SelectCategory(categories, r0.word) == c {
        assert Members(categories, recs, c) == [r0] + ms;
        TotalsStep(acc[c], r0, ms, d);
      } else {
        assert Members(categories, recs, c) == ms;
      }
    }
  }

  /**
   * From fresh accumulators, a category that collected at least one record gets the
   * arithmetic mean of exactly those records' vectors as its average record.
   */
  lemma AverageIsMean(categories: seq<string>, recs: seq<Store.Record>, d: nat, c: string)
    requires forall i :: 0 <= i < |recs| ==> |recs[i].vec| == d
    requires c == Default || c in categories
    ensures var acc := AccumulateAll(InitAccumulators(categories, d), categories, recs, d);
            && acc[c].cnt == |Members(categories, recs, c)|
            && (acc[c].cnt > 0 ==> Mean(acc[c]) == seq(d, (i: int) requires 0 <= i < d =>
                                     SumOf(Members(categories, recs, c), d)[i] / (|Members(categories, recs, c)| as real)))
  {
    var init := InitAccumulators(categories, d);
    AccumulateAllTotals(init, categories, recs, d, c);
  }

  /**
   * With the label "CAT/", the records CAT/a -> [2, 0], CAT/b -> [4, 0] and plain -> [0, 10]
   * yield the average records #CAT/UNK# -> [3, 0] and #WORD/UNK# -> [0, 10].
   */
  lemma AveragesExample(cats: seq<string>, a: Store.Record, b: Store.Record, p: Store.Record)
    requires cats == ["CAT/"]
    requires a == Store.Record("CAT/a", [2.0, 0.0]) && b == Store.Record("CAT/b", [4.0, 0.0])
    requires p == Store.Record("plain", [0.0, 10.0])
    ensures var acc := AccumulateAll(InitAccumulators(cats, 2), cats, [a, b, p], 2);
            && Store.Record("#CAT/UNK#", [3.0, 0.0]) in Synthetic(cats, acc)
            && Store.Record("#WORD/UNK#", [0.0, 10.0]) in Synthetic(cats, acc)
  {
    var recs := [a, b, p];
    ExampleMembers(cats, a, b, p);
    var init := InitAccumulators(cats, 2);
    var acc := AccumulateAll(init, cats, recs, 2);
    AccumulateAllTotals(init, cats, recs, 2, "CAT/");
    AccumulateAllTotals(init, cats, recs, 2, Default);
    ExampleSums(a, b, p);
    assert "CAT/" in Labels(cats) && Default in Labels(cats);
    assert init["CAT/"] == Acc(0, Zeros(2)) && init[Default] == Acc(0, Zeros(2));
    AddZeros([6.0, 0.0]);
    AddZeros([0.0, 10.0]);
    assert acc["CAT/"] == Acc(2, [6.0, 0.0]);
    assert acc[Default] == Acc(1, [0.0, 10.0]);
    ExampleSynthetic(cats, acc);
  }

  lemma ExampleSynthetic(cats: seq<string>, acc: map<string, Acc>)
    requires cats == ["CAT/"] && Covers(acc, cats)
    requires "CAT/" in acc && acc["CAT/"] == Acc(2, [6.0, 0.0]) && acc[Default] == Acc(1, [0.0, 10.0])
    ensures Store.Record("#CAT/UNK#", [3.0, 0.0]) in Synthetic(cats, acc)
    ensures Store.Record("#WORD/UNK#", [0.0, 10.0]) in Synthetic(cats, acc)
  {
    assert Mean(acc["CAT/"]) == [3.0, 0.0];
    assert Mean(acc[Default]) == [0.0, 10.0];
    assert UnkKey(cats[0]) == "#CAT/UNK#";
  }

  lemma AddZeros(v: seq<real>)
    ensures Add(Zeros(|v|), v) == v
  {
  }

  lemma ExampleSelect(cats: seq<string>, a: string, b: string, p: string)
    requires cats == ["CAT/"] && a == "CAT/a" && b == "CAT/b" && p == "plain"
    ensures SelectCategory(cats, a) == "CAT/" && SelectCategory(cats, b) == "CAT/"
    ensures SelectCategory(cats, p) == Default
  {
    assert OccursAt("CAT/", a, 0) && OccursAt("CAT/", b, 0);
    assert !IsSubstring("CAT/", p) by {
      assert p[0..4][0] == 'p' && p[1..5][0] == 'l';
      assert !OccursAt("CAT/", p, 0) && !OccursAt("CAT/", p, 1);
    }
    SelectCategoryRule(cats, a);
    SelectCategoryRule(cats, b);
    SelectCategoryRule(cats, p);
  }

  lemma ExampleMembers(cats: seq<string>, a: Store.Record, b: Store.Record, p: Store.Record)
    requires cats == ["CAT/"] && a.word == "CAT/a" && b.word == "CAT/b" && p.word == "plain"
    ensures Members(cats, [a, b, p], "CAT/") == [a, b]
    ensures Members(cats, [a, b, p], Default) == [p]
  {
    ExampleSelect(cats, a.word, b.word, p.word);
    var recs := [a, b, p];
    assert recs[1..] == [b, p] && recs[1..][1..] == [p] && [p][1..] == [];
    assert Members(cats, [p], "CAT/") == [];
    assert Members(cats, [b, p], "CAT/") == [b];
    assert Members(cats, [p], Default) == [p];
    assert Members(cats, [b, p], Default) == [p];
  }

  lemma ExampleSums(a: Store.Record, b: Store.Record, p: Store.Record)
    requires a.vec == [2.0, 0.0] && b.vec == [4.0, 0.0] && p.vec == [0.0, 10.0]
    ensures SumOf([a, b], 2) == [6.0, 0.0]
    ensures SumOf([p], 2) == [0.0, 10.0]
  {
    assert [a, b][1..] == [b];
    assert SumOf([b], 2) == [4.0, 0.0];
  }
}

=== FILE: decimal.dfy ===
/**
 * Decimal numerals: Python's `str(n)`, used to name the vector columns `d0`, `d1`, ...,
 * and Python's `int(token)`, used to read the two header numbers of a word2vec file.
 */
module Decimal {
  import opened Wrappers

  predicate IsDigit(c: char) {
    '0' <= c <= '9'
  }

  predicate AllDigits(s: string) {
    forall i :: 0 <= i < |s| ==> IsDigit(s[i])
  }

  function DigitChar(d: nat): (c: char)
    requires d < 10
    ensures IsDigit(c)
  {
    ('0' as int + d) as char
  }

  function DigitValue(c: char): (d: nat)
    requires IsDigit(c)
    ensures d < 10
  {
    c as int - '0' as int
  }

  /** Python's `str(n)` for a non-negative integer: shortest decimal numeral, no leading zero. */
  function Show(n: nat): (s: string)
    ensures |s| >= 1 && AllDigits(s)
    ensures |s| > 1 ==> s[0] != '0'
  {
    if n < 10 then [DigitChar(n)] else Show(n / 10) + [DigitChar(n % 10)]
  }

  /** The number an all-digit numeral denotes (leading zeros allowed, as `int()` allows them). */
  function Value(s: string): nat
    requires AllDigits(s)
  {
    if |s| == 0 then 0 else Value(s[..|s| - 1]) * 10 + DigitValue(s[|s| - 1])
  }

  /** Reading back a shown numeral gives the number it was made from. */
  lemma {:induction false} ValueOfShow(n: nat)
    ensures Value(Show(n)) == n
  {
    if n >= 10 {
      var s := Show(n);
      assert s[..|s| - 1] == Show(n / 10);
      ValueOfShow(n / 10);
    }
  }

  /** Distinct numbers have distinct numerals, so `d<i>` column names never collide. */
  lemma ShowInjective(m: nat, n: nat)
    ensures Show(m) == Show(n) <==> m == n
  {
    if Show(m) == Show(n) {
      ValueOfShow(m);
      ValueOfShow(n);
    }
  }

  /** Python's `str(i)` for any integer. */
  function ShowInt(i: int): string {
    if i < 0 then "-" + Show(-i) else Show(i)
  }

  /**
   * Python's `int(token)` on a whitespace-free token: an optional sign followed by one or
   * more decimal digits; anything else raises `ValueError` (here `None`).
   */
  function ParseInt(s: string): (r: Option<int>)
    ensures r.Some? <==> (|s| > 0 && AllDigits(s)) || (|s| > 1 && (s[0] == '-' || s[0] == '+') && AllDigits(s[1..]))
    ensures r.Some? && s[0] != '-' ==> r.value >= 0
  {
    if |s| > 1 && (s[0] == '-' || s[0] == '+') && AllDigits(s[1..]) then
      var v: int := Value(s[1..]);
      Some(if s[0] == '-' then -v else v)
    else if |s| > 0 && AllDigits(s) then
      Some(Value(s))
    else
      None
  }

  /** `int(str(i)) == i` for every integer. */
  lemma ParseShowInt(i: int)
    ensures ParseInt(ShowInt(i)) == Some(i)
  {
    var s := ShowInt(i);
    if i < 0 {
      assert s[1..] == Show(-i);
      ValueOfShow(-i);
      assert |s| > 1 && s[0] == '-' && AllDigits(s[1..]);
    } else {
      ValueOfShow(i);
      assert !(s[0] == '-' || s[0] == '+');
    }
  }
}

=== FILE: generic.dfy ===
/**
 * `GenericEmbedding`: construction (accumulators, the `default` check, opening the table
 * and, with `reset`, clearing it and running the ingestion pass) and the `emb` query.
 */
module Generic {
  import opened Wrappers
  import Store
  import Ingest
  import Categories

  /** The out-of-vocabulary settings the constructor accepts. */
  predicate ValidDefault(d: string) {
    d == "none" || d == "random" || d == "zero"
  }

  /** Constructor arguments that reach the modelled behaviour (`batch_size` is stored but unused). */
  datatype Config = Config(categories: seq<string>, dEmb: int, default: string, reset: bool, batchSize: nat)

  datatype InitError =
    | NegativeDimension             // ValueError from `zeros(d_emb)` with a negative `d_emb`
    | BadDefault                    // AssertionError from `assert default in {...}`
    | LoadFailed(cause: Ingest.Error)

  /** The table left behind by construction, and the exception it raised, if any. */
  datatype Opened = Opened(table: Option<Store.Table>, failure: Option<InitError>)

  /**
   * `GenericEmbedding.__init__`: building the zero sums fails first for a negative `d_emb`,
   * then a bad `default` fails, both before the table is touched; otherwise the table is
   * created if missing, and with `reset` it is cleared (committed at once) and loaded from
   * the file. A failed load therefore leaves an empty table behind.
   */
  function Init(db: Option<Store.Table>, cfg: Config, file: seq<string>, parse: Ingest.RealParser): (r: Opened)
    ensures cfg.dEmb < 0 ==> r == Opened(db, Some(NegativeDimension))
    ensures cfg.dEmb >= 0 && !ValidDefault(cfg.default) ==> r == Opened(db, Some(BadDefault))
    ensures r.table != db || r.failure.None? ==> cfg.dEmb >= 0 && ValidDefault(cfg.default)
    ensures cfg.dEmb >= 0 && ValidDefault(cfg.default) ==> r.table.Some? && r.table.value.width == Store.InitializeDb(db).width
    ensures cfg.dEmb >= 0 && ValidDefault(cfg.default) && !cfg.reset ==> r == Opened(Some(Store.InitializeDb(db)), None)
    ensures cfg.reset && r.failure.Some? && r.failure.value.LoadFailed? ==> r.table.value.rows == map[]
  {
    if cfg.dEmb < 0 then Opened(db, Some(NegativeDimension))
    else if !ValidDefault(cfg.default) then Opened(db, Some(BadDefault))
    else
      var t := Store.InitializeDb(db);
      if !cfg.reset then Opened(Some(t), None)
      else
        var cleared := Store.Clear(t);
        match Ingest.LoadWord2Emb(cleared, file, cfg.categories, cfg.dEmb, parse)
        case Ok(t') => Opened(Some(t'), None)
        case Err(e) => Opened(Some(cleared), Some(LoadFailed(e)))
  }

  /** `d_emb = -1` with `default = 'bogus'`: `zeros` raises before the `default` assert is reached. */
  lemma NegativeDimensionFirst(db: Option<Store.Table>, file: seq<string>, parse: Ingest.RealParser)
    ensures Init(db, Config([], -1, "bogus", true, 5000), file, parse) == Opened(db, Some(NegativeDimension))
  {
  }

  /** `emb(word, default)`: the stored vector or `None`; the `default` argument is ignored. */
  function Emb(t: Store.Table, word: string, default: Option<string>): (r: Option<seq<real>>)
    ensures r.Some? <==> word in t.rows
    ensures r.Some? ==> r.value == t.rows[word]
  {
    Store.Lookup(t, word)
  }

  /**
   * A successful reset holds exactly the words of the first `min(vocab_size, 5000)` data
   * lines, each with the vector of its first line, whatever the table held before.
   */
  lemma ResetHoldsExactlyTheFile(db: Option<Store.Table>, cfg: Config, file: seq<string>, parse: Ingest.RealParser, w: string)
    requires cfg.reset
    requires Init(db, cfg, file, parse).failure.None?
    ensures Ingest.ParseHeader(Ingest.ReadLine(file, 0)).Ok?
    ensures var h := Ingest.ParseHeader(Ingest.ReadLine(file, 0)).value;
            var rs := Ingest.ParseAll(file, 0, Ingest.LinesToRead(h), Ingest.LineParserFor(h.vectorSize, parse));
            var t := Init(db, cfg, file, parse).table.value;
            && rs.Ok?
            && Store.Len(t) == |Ingest.Dedup(rs.value, {})|
            && (w in Store.BatchWords(rs.value) ==> Store.Lookup(t, w) == Some(Ingest.FirstVec(rs.value, w)))
            && (w !in Store.BatchWords(rs.value) ==> Store.Lookup(t, w) == None)
  {
    var cleared := Store.Clear(Store.InitializeDb(db));
    Ingest.LoadEffect(cleared, file, cfg.categories, cfg.dEmb, parse, w);
  }
}

=== FILE: ingest.dfy ===
/**
 * `GenericEmbedding.load_word2emb`: read a word2vec text file (a header line
 * "<vocab_size> <vector_size>" then one "<word> <c0> ... <c{n-1}>" line per record),
 * keep the first occurrence of every word, append the category averages and insert the
 * result as one batch.
 *
 * The file is the sequence of lines `readline()` returns, header first; an empty string is
 * what `readline()` returns at end of input. `float()` is the parameter `parse`.
 */
module Ingest {
  import opened Wrappers
  import opened Text
  import opened Decimal
  import Store
  import Categories

  /** `limit = 5000`: no more data lines than this are read. */
  const Limit: int := 5000

  datatype Error =
    | BadHeader                              // the header is not exactly two integers (ValueError)
    | UnexpectedEof(lineNo: nat)             // EOFError before data line `lineNo`
    | InvalidVector(lineNo: nat)             // ValueError: wrong field count on data line `lineNo`
    | BadNumber(lineNo: nat, token: string)  // ValueError raised by float() on a component
    | InsertError(cause: Store.Error)        // re-raised from insert_batch

  datatype Header = Header(vocabSize: int, vectorSize: int)

  /** `float(token)`: a partial map from token to number, left abstract. */
  type RealParser = string -> Option<real>

  /** `vocab_size, vector_size = (int(x) for x in header.split())`. */
  function ParseHeader(line: string): (r: Result<Header, Error>)
    ensures r.Ok? <==> |Words(line)| == 2 && ParseInt(Words(line)[0]).Some? && ParseInt(Words(line)[1]).Some?
  {
    var ws := Words(line);
    if |ws| != 2 then Err(BadHeader)
    else match (ParseInt(ws[0]), ParseInt(ws[1]))
      case (Some(v), Some(d)) => Ok(Header(v, d))
      case _ => Err(BadHeader)
  }

  /** The header "<v> <d>\n" written the usual way reads back as `v` and `d`. */
  lemma HeaderRoundTrip(v: int, d: int)
    ensures ParseHeader(ShowInt(v) + " " + ShowInt(d) + "\n") == Ok(Header(v, d))
  {
    var ws := [ShowInt(v), ShowInt(d)];
    ShowIntIsWord(v);
    ShowIntIsWord(d);
    assert Join(ws[1..], ' ') == ShowInt(d);
    assert Join(ws, ' ') + "\n" == ShowInt(v) + " " + ShowInt(d) + "\n";
    WordsJoin(ws, "\n");
    ParseShowInt(v);
    ParseShowInt(d);
  }

  lemma ShowIntIsWord(i: int)
    ensures IsWord(ShowInt(i))
  {
    var s := ShowInt(i);
    if i < 0 {
      assert s[1..] == Show(-i);
      assert forall j :: 1 <= j < |s| ==> s[j] == Show(-i)[j - 1];
    }
  }

  /** `min(vocab_size, limit)`, read through `range`, so a negative count reads nothing. */
  function LinesToRead(h: Header): (n: nat)
    ensures n <= Limit
    ensures 0 <= h.vocabSize <= Limit ==> n == h.vocabSize
    ensures h.vocabSize >= Limit ==> n == Limit
    ensures h.vocabSize <= 0 ==> n == 0
  {
    var m := if h.vocabSize < Limit then h.vocabSize else Limit;
    if m < 0 then 0 else m
  }

  /** `fin.readline()` for the line at index `k`: the empty string once the input is exhausted. */
  function ReadLine(file: seq<string>, k: nat): string {
    if k < |file| then file[k] else ""
  }

  /** `[float(x) for x in tokens]`: the first token `float` rejects is the error. */
  function ParseComponents(tokens: seq<string>, parse: RealParser): (r: Result<seq<real>, string>)
    ensures r.Ok? <==> forall i :: 0 <= i < |tokens| ==> parse(tokens[i]).Some?
    ensures r.Ok? ==> |r.value| == |tokens| && forall i :: 0 <= i < |tokens| ==> parse(tokens[i]) == Some(r.value[i])
    ensures r.Err? ==> r.error in tokens && parse(r.error).None?
  {
    if |tokens| == 0 then Ok([])
    else match parse(tokens[0])
      case None => Err(tokens[0])
      case Some(x) =>
        var rest := ParseComponents(tokens[1..], parse);
        assert forall i :: 1 <= i < |tokens| ==> tokens[i] == tokens[1..][i - 1];
        match rest
        case Ok(xs) => Ok([x] + xs)
        case Err(t) => Err(t)
  }

  /**
   * One data line: strip trailing whitespace, split on single spaces, demand exactly
   * `vector_size + 1` fields, then the word is the first field and the vector the rest.
   * The line is accepted exactly when it has that many fields and `float` accepts every
   * field after the first; component `i` is then `float` of field `i + 1`.
   */
  function ParseLine(line: string, lineNo: nat, vectorSize: int, parse: RealParser): (r: Result<Store.Record, Error>)
    ensures var parts := Split(RStrip(line), ' ');
            r.Ok? <==> Count(RStrip(line), ' ') == vectorSize && forall i :: 1 <= i < |parts| ==> parse(parts[i]).Some?
    ensures r.Ok? ==> |r.value.vec| == vectorSize
    ensures r.Ok? ==> var parts := Split(RStrip(line), ' ');
                      |parts| == |r.value.vec| + 1 &&
                      forall i :: 0 <= i < |r.value.vec| ==> parse(parts[i + 1]) == Some(r.value.vec[i])
    ensures r.Ok? ==> r.value.word == Split(RStrip(line), ' ')[0] && ' ' !in r.value.word
    ensures r.Err? && r.error.InvalidVector? <==> Count(RStrip(line), ' ') != vectorSize
    ensures r.Err? ==> r.error.InvalidVector? || r.error.BadNumber?
    ensures r.Err? ==> r.error.lineNo == lineNo
  {
    var parts := Split(RStrip(line), ' ');
    SplitLength(RStrip(line), ' ');
    if |parts| != vectorSize + 1 then Err(InvalidVector(lineNo))
    else
      assert forall i :: 1 <= i < |parts| ==> parts[i] == parts[1..][i - 1];
      match ParseComponents(parts[1..], parse)
      case Ok(vec) => Ok(Store.Record(parts[0], vec))
      case Err(tok) => Err(BadNumber(lineNo, tok))
  }

  lemma {:induction false} RStripSuffix(s: string, t: string)
    requires |s| == 0 || !IsByteSpace(s[|s| - 1])
    requires forall i :: 0 <= i < |t| ==> IsByteSpace(t[i])
    ensures RStrip(s + t) == s
    decreases |t|
  {
    if |t| == 0 {
      assert s + t == s;
    } else {
      assert (s + t)[..|s + t| - 1] == s + t[..|t| - 1];
      RStripSuffix(s, t[..|t| - 1]);
    }
  }

  /**
   * A record written as "<word> <t0> ... <t{n-1}>" followed by any run of trailing ASCII
   * whitespace ("\n", "\r\n", " \n" or nothing at all on a last line) reads back as that
   * word and the numbers its tokens denote, provided no field holds a space and the last
   * field does not itself end in whitespace.
   */
  lemma LineRoundTrip(word: string, tokens: seq<string>, vec: seq<real>, ending: string, lineNo: nat, parse: RealParser)
    requires ' ' !in word && forall i :: 0 <= i < |tokens| ==> ' ' !in tokens[i]
    requires var last := ([word] + tokens)[|tokens|]; |last| > 0 && !IsByteSpace(last[|last| - 1])
    requires forall i :: 0 <= i < |ending| ==> IsByteSpace(ending[i])
    requires |vec| == |tokens| && forall i :: 0 <= i < |tokens| ==> parse(tokens[i]) == Some(vec[i])
    ensures ParseLine(Join([word] + tokens, ' ') + ending, lineNo, |tokens|, parse) == Ok(Store.Record(word, vec))
  {
    var fields := [word] + tokens;
    var body := Join(fields, ' ');
    JoinLastChar(fields, ' ');
    RStripSuffix(body, ending);
    SplitJoin(fields, ' ');
    assert fields[1..] == tokens;
    var r := ParseComponents(tokens, parse);
    assert r.Ok?;
    assert r.value == vec;
  }

  /** A join ends with the last char of its last field, when that field is non-empty. */
  lemma {:induction false} JoinLastChar(parts: seq<string>, sep: char)
    requires |parts| >= 1 && |parts[|parts| - 1]| > 0
    ensures var j := Join(parts, sep); |j| > 0 && j[|j| - 1] == parts[|parts| - 1][|parts[|parts| - 1]| - 1]
    decreases |parts|
  {
    if |parts| > 1 {
      assert parts[1..][|parts| - 2] == parts[|parts| - 1];
      JoinLastChar(parts[1..], sep);
    }
  }

  /**
   * How the reading loop turns the text of data line `l` into a record. The loop is stated
   * over any such parser; `LineParserFor` is the one the source uses.
   */
  type LineParser = (string, nat) -> Result<Store.Record, Error>

  function LineParserFor(vectorSize: int, parse: RealParser): LineParser {
    (line: string, l: nat) => ParseLine(line, l, vectorSize, parse)
  }

  /** A line parser fails only with a field-count or number error naming the line it was given. */
  ghost predicate Reports(lp: LineParser) {
    forall line, l :: lp(line, l).Err? ==>
      (lp(line, l).error.InvalidVector? || lp(line, l).error.BadNumber?) && lp(line, l).error.lineNo == l
  }

  lemma LineParserForReports(vectorSize: int, parse: RealParser)
    ensures Reports(LineParserFor(vectorSize, parse))
  {
    forall line, l | LineParserFor(vectorSize, parse)(line, l).Err?
      ensures var e := LineParserFor(vectorSize, parse)(line, l).error;
              (e.InvalidVector? || e.BadNumber?) && e.lineNo == l
    {
      assert LineParserFor(vectorSize, parse)(line, l) == ParseLine(line, l, vectorSize, parse);
    }
  }

  /**
   * Data line `l`, which is line `l + 1` of the input: `EOFError` once the input is
   * exhausted, otherwise the parse of that line.
   */
  function ReadData(file: seq<string>, l: nat, lp: LineParser): (r: Result<Store.Record, Error>)
    ensures Reports(lp) && r.Err? ==>
              && (r.error.UnexpectedEof? || r.error.InvalidVector? || r.error.BadNumber?)
              && r.error.lineNo == l
              && (r.error.UnexpectedEof? <==> ReadLine(file, l + 1) == "")
  {
    var line := ReadLine(file, l + 1);
    if line == "" then Err(UnexpectedEof(l)) else lp(line, l)
  }

  /** Every data line from `lineNo` up to `n`, parsed, without deduplication. */
  function ParseAll(file: seq<string>, lineNo: nat, n: nat, lp: LineParser): (r: Result<seq<Store.Record>, Error>)
    requires lineNo <= n
    ensures r.Ok? ==> |r.value| == n - lineNo
    decreases n - lineNo
  {
    if lineNo == n then Ok([])
    else match ReadData(file, lineNo, lp)
      case Err(e) => Err(e)
      case Ok(rec) =>
        match ParseAll(file, lineNo + 1, n, lp)
        case Err(e) => Err(e)
        case Ok(rs) => Ok([rec] + rs)
  }

  /** Data line `l` is present and parses. */
  predicate LineOk(file: seq<string>, l: nat, lp: LineParser) {
    ReadData(file, l, lp).Ok?
  }

  /** Reading succeeds exactly when every data line in range is present and parses. */
  lemma {:induction false} ParseAllOk(file: seq<string>, lineNo: nat, n: nat, lp: LineParser)
    requires lineNo <= n
    ensures ParseAll(file, lineNo, n, lp).Ok? <==> forall l :: lineNo <= l < n ==> LineOk(file, l, lp)
    decreases n - lineNo
  {
    if lineNo < n {
      ParseAllOk(file, lineNo + 1, n, lp);
      var d := ReadData(file, lineNo, lp);
      var r := ParseAll(file, lineNo + 1, n, lp);
      if d.Ok? {
        if r.Ok? {
          assert ParseAll(file, lineNo, n, lp) == Ok([d.value] + r.value);
        } else {
          assert ParseAll(file, lineNo, n, lp) == r;
        }
      } else {
        assert ParseAll(file, lineNo, n, lp) == Err(d.error);
        assert !LineOk(file, lineNo, lp);
      }
    }
  }

  /** On success the `i`-th record is the parse of data line `lineNo + i`. */
  lemma {:induction false} ParseAllValues(file: seq<string>, lineNo: nat, n: nat, lp: LineParser, i: nat)
    requires lineNo + i < n
    requires ParseAll(file, lineNo, n, lp).Ok?
    ensures LineOk(file, lineNo + i, lp)
    ensures ParseAll(file, lineNo, n, lp).value[i]
              == ReadData(file, lineNo + i, lp).value
    decreases i
  {
    var d := ReadData(file, lineNo, lp);
    var r := ParseAll(file, lineNo + 1, n, lp);
    assert d.Ok? && r.Ok?;
    assert ParseAll(file, lineNo, n, lp).value == [d.value] + r.value;
    if i > 0 {
      ParseAllValues(file, lineNo + 1, n, lp, i - 1);
    }
  }

  /** `EOFError` names a missing data line in range, and every line before it was good. */
  lemma {:induction false} ParseAllEof(file: seq<string>, lineNo: nat, n: nat, lp: LineParser)
    requires Reports(lp) && lineNo <= n
    ensures var r := ParseAll(file, lineNo, n, lp);
            r.Err? && r.error.UnexpectedEof? ==>
              && lineNo <= r.error.lineNo < n
              && ReadLine(file, r.error.lineNo + 1) == ""
              && forall l :: lineNo <= l < r.error.lineNo ==> LineOk(file, l, lp)
    decreases n - lineNo
  {
    if lineNo < n {
      var d := ReadData(file, lineNo, lp);
      if d.Ok? {
        ParseAllEof(file, lineNo + 1, n, lp);
        var r := ParseAll(file, lineNo + 1, n, lp);
        if r.Err? {
          assert ParseAll(file, lineNo, n, lp) == r;
          assert LineOk(file, lineNo, lp);
        }
      }
    }
  }

  /**
   * Conversely, when the lines before data line `m` are good and line `m` is missing,
   * reading stops there with `EOFError` for line `m`.
   */
  lemma {:induction false} ParseAllStopsAtEof(file: seq<string>, lineNo: nat, n: nat, lp: LineParser, m: nat)
    requires lineNo <= m < n
    requires forall l :: lineNo <= l < m ==> LineOk(file, l, lp)
    requires ReadLine(file, m + 1) == ""
    ensures ParseAll(file, lineNo, n, lp) == Err(UnexpectedEof(m))
    decreases m - lineNo
  {
    if lineNo == m {
      assert ReadData(file, m, lp) == Err(UnexpectedEof(m));
    } else {
      assert LineOk(file, lineNo, lp);
      ParseAllStopsAtEof(file, lineNo + 1, n, lp, m);
    }
  }

  /**
   * A header followed by fewer than `n` data lines fails to read, with a line error; when
   * every data line present is good, that error is `EOFError` for the first missing line.
   */
  lemma TruncatedInputFails(file: seq<string>, n: nat, lp: LineParser)
    requires Reports(lp)
    requires 1 <= |file| <= n
    ensures ParseAll(file, 0, n, lp).Err?
    ensures ParseAll(file, 0, n, lp).error.UnexpectedEof?
            || ParseAll(file, 0, n, lp).error.InvalidVector?
            || ParseAll(file, 0, n, lp).error.BadNumber?
    ensures (forall l :: 0 <= l < |file| - 1 ==> LineOk(file, l, lp))
              ==> ParseAll(file, 0, n, lp) == Err(UnexpectedEof(|file| - 1))
  {
    ParseAllOk(file, 0, n, lp);
    assert !LineOk(file, |file| - 1, lp);
    ParseAllErrors(file, 0, n, lp);
    if forall l :: 0 <= l < |file| - 1 ==> LineOk(file, l, lp) {
      ParseAllStopsAtEof(file, 0, n, lp, |file| - 1);
    }
  }

  lemma {:induction false} ParseAllErrors(file: seq<string>, lineNo: nat, n: nat, lp: LineParser)
    requires Reports(lp) && lineNo <= n
    ensures var r := ParseAll(file, lineNo, n, lp);
            r.Err? ==> r.error.UnexpectedEof? || r.error.InvalidVector? || r.error.BadNumber?
    decreases n - lineNo
  {
    if lineNo < n {
      ParseAllErrors(file, lineNo + 1, n, lp);
    }
  }

  /** Keep the first record of every word not in `seen`, in input order. */
  function Dedup(recs: seq<Store.Record>, seen: set<string>): (out: seq<Store.Record>)
    ensures Store.DistinctWords(out)
    ensures |out| <= |recs|
    ensures forall r :: r in out ==> r in recs && r.word !in seen
    decreases |recs|
  {
    if |recs| == 0 then []
    else if recs[0].word in seen then Dedup(recs[1..], seen)
    else [recs[0]] + Dedup(recs[1..], seen + {recs[0].word})
  }

  /** `recs[i]` is the first record for its word. */
  predicate IsFirst(recs: seq<Store.Record>, i: nat)
    requires i < |recs|
  {
    forall j :: 0 <= j < i ==> recs[j].word != recs[i].word
  }

  /**
   * A record survives deduplication exactly when it is the first record for its word and
   * the word was not seen before the pass.
   */
  lemma DedupKeepsFirst(recs: seq<Store.Record>, seen: set<string>, x: Store.Record)
    ensures x in Dedup(recs, seen) <==> x.word !in seen && exists i :: 0 <= i < |recs| && recs[i] == x && IsFirst(recs, i)
  {
    if x in Dedup(recs, seen) {
      DedupKeptIsFirst(recs, seen, x);
    }
    if x.word !in seen && exists i :: 0 <= i < |recs| && recs[i] == x && IsFirst(recs, i) {
      var i :| 0 <= i < |recs| && recs[i] == x && IsFirst(recs, i);
      DedupFirstIsKept(recs, seen, i);
    }
  }

  lemma {:induction false} DedupKeptIsFirst(recs: seq<Store.Record>, seen: set<string>, x: Store.Record)
    requires x in Dedup(recs, seen)
    ensures x.word !in seen && exists i :: 0 <= i < |recs| && recs[i] == x && IsFirst(recs, i)
    decreases |recs|
  {
    var rest := recs[1..];
    if x == recs[0] {
      assert IsFirst(recs, 0);
    } else {
      var seen' := if recs[0].word in seen then seen else seen + {recs[0].word};
      assert x in Dedup(rest, seen');
      DedupKeptIsFirst(rest, seen', x);
      var i :| 0 <= i < |rest| && rest[i] == x && IsFirst(rest, i);
      assert recs[i + 1] == x;
      forall j | 0 <= j < i + 1 ensures recs[j].word != recs[i + 1].word
      {
        if j > 0 {
          assert recs[j] == rest[j - 1];
        }
      }
    }
  }

  lemma {:induction false} DedupFirstIsKept(recs: seq<Store.Record>, seen: set<string>, i: nat)
    requires i < |recs| && IsFirst(recs, i) && recs[i].word !in seen
    ensures recs[i] in Dedup(recs, seen)
    decreases |recs|
  {
    if i > 0 {
      var rest := recs[1..];
      var seen' := if recs[0].word in seen then seen else seen + {recs[0].word};
      assert rest[i - 1] == recs[i];
      forall j | 0 <= j < i - 1 ensures rest[j].word != rest[i - 1].word
      {
        assert rest[j] == recs[j + 1];
      }
      DedupFirstIsKept(rest, seen', i - 1);
    }
  }

  /** A word is in the deduplicated batch exactly when it is in the input and was not seen before. */
  lemma {:induction false} DedupWords(recs: seq<Store.Record>, seen: set<string>, w: string)
    ensures w in Store.BatchWords(Dedup(recs, seen)) <==> w in Store.BatchWords(recs) && w !in seen
    decreases |recs|
  {
    if |recs| > 0 {
      var rest := recs[1..];
      var seen' := if recs[0].word in seen then seen else seen + {recs[0].word};
      DedupWords(rest, seen', w);
      var ws := Store.BatchWords(rest);
      assert recs == [recs[0]] + rest;
      Store.BatchWordsAppend([recs[0]], rest);
      assert w in Store.BatchWords(recs) <==> w == recs[0].word || w in ws;
      if recs[0].word in seen {
        assert Dedup(recs, seen) == Dedup(rest, seen);
      } else {
        var out := Dedup(rest, seen');
        assert Dedup(recs, seen) == [recs[0]] + out;
        Store.BatchWordsAppend([recs[0]], out);
      }
    }
  }

  /** Records that already have distinct, unseen words pass through unchanged. */
  lemma {:induction false} DedupOfDistinct(recs: seq<Store.Record>, seen: set<string>)
    requires Store.DistinctWords(recs)
    requires forall i :: 0 <= i < |recs| ==> recs[i].word !in seen
    ensures Dedup(recs, seen) == recs
    decreases |recs|
  {
    if |recs| > 0 {
      var rest := recs[1..];
      var seen' := seen + {recs[0].word};
      DistinctTail(recs, seen);
      DedupOfDistinct(rest, seen');
      assert Dedup(recs, seen) == [recs[0]] + Dedup(rest, seen');
    }
  }

  /** The tail of distinct, unseen records is distinct and unseen once the head is seen. */
  lemma DistinctTail(recs: seq<Store.Record>, seen: set<string>)
    requires |recs| > 0 && Store.DistinctWords(recs)
    requires forall i :: 0 <= i < |recs| ==> recs[i].word !in seen
    ensures Store.DistinctWords(recs[1..])
    ensures forall i :: 0 <= i < |recs| - 1 ==> recs[1..][i].word !in seen + {recs[0].word}
  {
    var rest := recs[1..];
    assert forall i :: 0 <= i < |rest| ==> rest[i] == recs[i + 1];
    forall i | 0 <= i < |rest| ensures rest[i].word !in seen + {recs[0].word} {
      assert recs[0].word != recs[i + 1].word;
    }
  }

  /** Deduplicating twice is deduplicating once. */
  lemma DedupIdempotent(recs: seq<Store.Record>)
    ensures Dedup(Dedup(recs, {}), {}) == Dedup(recs, {})
  {
    DedupOfDistinct(Dedup(recs, {}), {});
  }

  /** `b` keeps the relative order of `a`'s elements: `b` is a subsequence of `a`. */
  predicate Subsequence(b: seq<Store.Record>, a: seq<Store.Record>)
    decreases |a|
  {
    if |b| == 0 then true
    else if |a| == 0 then false
    else if b[0] == a[0] then Subsequence(b[1..], a[1..])
    else Subsequence(b, a[1..])
  }

  lemma {:induction false} SubsequenceSkip(b: seq<Store.Record>, a: seq<Store.Record>)
    requires |a| > 0 && Subsequence(b, a[1..])
    ensures Subsequence(b, a)
    decreases |a|, |b|
  {
    if |b| > 0 && b[0] == a[0] {
      SubsequenceDropHead(b, a[1..]);
    }
  }

  lemma {:induction false} SubsequenceDropHead(b: seq<Store.Record>, a: seq<Store.Record>)
    requires |b| > 0 && Subsequence(b, a)
    ensures Subsequence(b[1..], a)
    decreases |a|, |b|
  {
    if |a| > 0 {
      if b[0] == a[0] {
        SubsequenceSkip(b[1..], a);
      } else {
        SubsequenceDropHead(b, a[1..]);
        SubsequenceSkip(b[1..], a);
      }
    }
  }

  /** The batch lists the kept records in the order they occur in the input. */
  lemma {:induction false} DedupKeepsOrder(recs: seq<Store.Record>, seen: set<string>)
    ensures Subsequence(Dedup(recs, seen), recs)
    decreases |recs|
  {
    if |recs| > 0 {
      var rest := recs[1..];
      if recs[0].word in seen {
        DedupKeepsOrder(rest, seen);
        SubsequenceSkip(Dedup(rest, seen), recs);
      } else {
        DedupKeepsOrder(rest, seen + {recs[0].word});
        var out := Dedup(recs, seen);
        assert out[0] == recs[0] && out[1..] == Dedup(rest, seen + {recs[0].word});
      }
    }
  }

  /**
   * The live reading loop: read, split and parse every line in range, skip a word already in
   * `seen`, otherwise add it to `seen` and append the record to `batch`.
   */
  function ReadRecords(file: seq<string>, lineNo: nat, n: nat, lp: LineParser,
                       seen: set<string>, batch: seq<Store.Record>): (r: Result<seq<Store.Record>, Error>)
    requires lineNo <= n
    ensures r.Ok? ==> batch <= r.value
    decreases n - lineNo
  {
    if lineNo == n then Ok(batch)
    else match ReadData(file, lineNo, lp)
      case Err(e) => Err(e)
      case Ok(rec) =>
        if rec.word in seen then ReadRecords(file, lineNo + 1, n, lp, seen, batch)
        else ReadRecords(file, lineNo + 1, n, lp, seen + {rec.word}, batch + [rec])
  }

  /**
   * The interleaved loop equals parsing every line first and deduplicating afterwards: the
   * same error on the same line, or the same batch.
   */
  lemma {:induction false} ReadRecordsIsParseThenDedup(file: seq<string>, lineNo: nat, n: nat, lp: LineParser,
                                                      seen: set<string>, batch: seq<Store.Record>)
    requires lineNo <= n
    ensures ReadRecords(file, lineNo, n, lp, seen, batch)
              == match ParseAll(file, lineNo, n, lp)
                 case Ok(rs) => Ok(batch + Dedup(rs, seen))
                 case Err(e) => Err(e)
    decreases n - lineNo
  {
    if lineNo == n {
      assert batch + [] == batch;
    } else {
      if ReadData(file, lineNo, lp).Ok? {
        var rec := ReadData(file, lineNo, lp).value;
        var seen' := if rec.word in seen then seen else seen + {rec.word};
        var batch' := if rec.word in seen then batch else batch + [rec];
        assert ReadRecords(file, lineNo, n, lp, seen, batch) == ReadRecords(file, lineNo + 1, n, lp, seen', batch');
        ReadRecordsIsParseThenDedup(file, lineNo + 1, n, lp, seen', batch');
        var rest := ParseAll(file, lineNo + 1, n, lp);
        if rest.Ok? {
          assert ParseAll(file, lineNo, n, lp) == Ok([rec] + rest.value);
          DedupCons(rec, rest.value, seen, batch);
        }
      }
    }
  }

  /** One step of deduplication, appended to a batch. */
  lemma DedupCons(rec: Store.Record, rest: seq<Store.Record>, seen: set<string>, batch: seq<Store.Record>)
    ensures var seen' := if rec.word in seen then seen else seen + {rec.word};
            var batch' := if rec.word in seen then batch else batch + [rec];
            batch + Dedup([rec] + rest, seen) == batch' + Dedup(rest, seen')
  {
    assert ([rec] + rest)[1..] == rest;
    if rec.word !in seen {
      assert batch + [rec] + Dedup(rest, seen + {rec.word}) == batch + ([rec] + Dedup(rest, seen + {rec.word}));
    }
  }

  /** `load_word2emb` as the source runs it: one pass, then at most one `insert_batch`. */
  function LoadWord2Emb(t: Store.Table, file: seq<string>, categories: seq<string>, dEmb: nat, parse: RealParser): (r: Result<Store.Table, Error>)
    ensures r.Ok? ==> r.value.width == t.width && t.rows.Keys <= r.value.rows.Keys
    ensures ParseHeader(ReadLine(file, 0)).Err? ==> r == Err(BadHeader)
  {
    var h :- ParseHeader(ReadLine(file, 0));
    var recs :- ReadRecords(file, 0, LinesToRead(h), LineParserFor(h.vectorSize, parse), {}, []);
    // The per-record accumulation is commented out in the source, so every count is still 0.
    var batch := recs + Categories.Synthetic(categories, Categories.InitAccumulators(categories, dEmb));
    if |batch| == 0 then Ok(t)
    else match Store.InsertBatch(t, batch)
      case Ok(t') => Store.AddAllKeys(t.rows, batch); Ok(t')
      case Err(e) => Err(InsertError(e))
  }

  /** The vector of the first record for `w`. */
  function FirstVec(recs: seq<Store.Record>, w: string): seq<real>
    requires w in Store.BatchWords(recs)
  {
    if recs[0].word == w then recs[0].vec
    else
      assert Store.BatchWords(recs) == [recs[0].word] + Store.BatchWords(recs[1..]);
      FirstVec(recs[1..], w)
  }

  lemma {:induction false} FirstVecIsFirst(recs: seq<Store.Record>, w: string)
    requires w in Store.BatchWords(recs)
    ensures exists i :: 0 <= i < |recs| && recs[i] == Store.Record(w, FirstVec(recs, w)) && IsFirst(recs, i)
  {
    if recs[0].word != w {
      assert Store.BatchWords(recs) == [recs[0].word] + Store.BatchWords(recs[1..]);
      FirstVecIsFirst(recs[1..], w);
      var rest := recs[1..];
      var i :| 0 <= i < |rest| && rest[i] == Store.Record(w, FirstVec(rest, w)) && IsFirst(rest, i);
      assert FirstVec(recs, w) == FirstVec(rest, w);
      assert recs[i + 1] == rest[i];
      forall j | 0 <= j < i + 1 ensures recs[j].word != recs[i + 1].word
      {
        if j > 0 {
          assert recs[j] == rest[j - 1];
        }
      }
      assert IsFirst(recs, i + 1);
    } else {
      assert IsFirst(recs, 0);
    }
  }

  /**
   * A successful pass reads the header, parses all `min(vocab_size, 5000)` data lines, and
   * leaves the table holding the old rows plus, for every word read, the vector of its first
   * line; no average records are added, and the count grows by the number of distinct words.
   * Nothing is inserted when no line was read.
   */
  lemma LoadEffect(t: Store.Table, file: seq<string>, categories: seq<string>, dEmb: nat, parse: RealParser, w: string)
    requires LoadWord2Emb(t, file, categories, dEmb, parse).Ok?
    ensures ParseHeader(ReadLine(file, 0)).Ok?
    ensures var h := ParseHeader(ReadLine(file, 0)).value;
            var rs := ParseAll(file, 0, LinesToRead(h), LineParserFor(h.vectorSize, parse));
            var t' := LoadWord2Emb(t, file, categories, dEmb, parse).value;
            && rs.Ok?
            && |rs.value| == LinesToRead(h) <= Limit
            && t'.width == t.width
            && Store.Len(t') == Store.Len(t) + |Dedup(rs.value, {})|
            && (|rs.value| == 0 ==> t' == t)
            && (w in Store.BatchWords(rs.value) ==> Store.Lookup(t', w) == Some(FirstVec(rs.value, w)))
            && (w !in Store.BatchWords(rs.value) ==> Store.Lookup(t', w) == Store.Lookup(t, w))
  {
    var h := ParseHeader(ReadLine(file, 0)).value;
    var n := LinesToRead(h);
    LoadBatch(t, file, categories, dEmb, parse);
    var rs := ParseAll(file, 0, n, LineParserFor(h.vectorSize, parse)).value;
    var out := Dedup(rs, {});
    var t' := LoadWord2Emb(t, file, categories, dEmb, parse).value;
    DedupWords(rs, {}, w);
    if |out| == 0 {
      assert Store.BatchWords(out) == [];
    } else {
      Store.InsertBatchEffect(t, out);
      if w in Store.BatchWords(rs) {
        FirstVecIsFirst(rs, w);
        var x := Store.Record(w, FirstVec(rs, w));
        DedupKeepsFirst(rs, {}, x);
        var k :| 0 <= k < |out| && out[k] == x;
      }
    }
    if |rs| == 0 {
      assert out == [];
    }
  }

  /**
   * A successful pass is the single `insert_batch` of the deduplicated records, or no
   * insert at all when there are none.
   */
  lemma LoadBatch(t: Store.Table, file: seq<string>, categories: seq<string>, dEmb: nat, parse: RealParser)
    requires LoadWord2Emb(t, file, categories, dEmb, parse).Ok?
    ensures ParseHeader(ReadLine(file, 0)).Ok?
    ensures var h := ParseHeader(ReadLine(file, 0)).value;
            var rs := ParseAll(file, 0, LinesToRead(h), LineParserFor(h.vectorSize, parse));
            var t' := LoadWord2Emb(t, file, categories, dEmb, parse).value;
            && rs.Ok?
            && (|Dedup(rs.value, {})| == 0 ==> t' == t)
            && (|Dedup(rs.value, {})| > 0 ==> Store.InsertBatch(t, Dedup(rs.value, {})) == Ok(t'))
  {
    var h := ParseHeader(ReadLine(file, 0)).value;
    var n := LinesToRead(h);
    ReadRecordsIsParseThenDedup(file, 0, n, LineParserFor(h.vectorSize, parse), {}, []);
    var out := Dedup(ParseAll(file, 0, n, LineParserFor(h.vectorSize, parse)).value, {});
    assert [] + out == out;
    Categories.NoSyntheticWhenEmpty(categories, dEmb);
    assert out + [] == out;
  }

  /**
   * The header's `vector_size` is never checked against the table: when it differs from the
   * table width and some line was read, the pass fails in `insert_batch`.
   */
  lemma WidthMismatchFailsInsert(t: Store.Table, file: seq<string>, categories: seq<string>, dEmb: nat, parse: RealParser)
    requires ParseHeader(ReadLine(file, 0)).Ok?
    requires var h := ParseHeader(ReadLine(file, 0)).value;
             var rs := ParseAll(file, 0, LinesToRead(h), LineParserFor(h.vectorSize, parse));
             rs.Ok? && |rs.value| > 0 && h.vectorSize != t.width
    ensures LoadWord2Emb(t, file, categories, dEmb, parse).Err?
    ensures LoadWord2Emb(t, file, categories, dEmb, parse).error.InsertError?
  {
    var h := ParseHeader(ReadLine(file, 0)).value;
    var lp := LineParserFor(h.vectorSize, parse);
    FirstLineKept(file, LinesToRead(h), h.vectorSize, parse);
    var out := ReadRecords(file, 0, LinesToRead(h), lp, {}, []).value;
    var k :| 0 <= k < |out| && |out[k].vec| == h.vectorSize;
    Categories.NoSyntheticWhenEmpty(categories, dEmb);
    assert out + [] == out;
    Store.DimensionMismatchFailsBatch(t, out, k);
  }

  /** When some line was read, the batch holds a record of the header's vector size. */
  lemma FirstLineKept(file: seq<string>, n: nat, vectorSize: int, parse: RealParser)
    requires n > 0 && ParseAll(file, 0, n, LineParserFor(vectorSize, parse)).Ok?
    ensures var r := ReadRecords(file, 0, n, LineParserFor(vectorSize, parse), {}, []);
            r.Ok? && exists k :: 0 <= k < |r.value| && |r.value[k].vec| == vectorSize
  {
    var lp := LineParserFor(vectorSize, parse);
    ReadRecordsIsParseThenDedup(file, 0, n, lp, {}, []);
    var rs := ParseAll(file, 0, n, lp).value;
    ParseAllValues(file, 0, n, lp, 0);
    assert rs[0] == lp(ReadLine(file, 1), 0).value == ParseLine(ReadLine(file, 1), 0, vectorSize, parse).value;
    var out := Dedup(rs, {});
    DedupKeepsFirst(rs, {}, rs[0]);
    assert IsFirst(rs, 0);
    assert rs[0] in out;
    assert [] + out == out;
    var k :| 0 <= k < |out| && out[k] == rs[0];
  }

  /**
   * The file "2 2\nfoo 1.0 2.0\nfoo 9.0 9.0\n" loaded into an empty store of width 2 (the
   * instance D = 2 of the width-parameterised table; the source's own table is fixed at
   * 300 columns) stores `foo` once, with the vector of its first line.
   */
  lemma RepeatedWordExample(parse: RealParser)
    requires parse("1.0") == Some(1.0) && parse("2.0") == Some(2.0) && parse("9.0") == Some(9.0)
    ensures var r := LoadWord2Emb(Store.Table(2, map[]), ["2 2\n", "foo 1.0 2.0\n", "foo 9.0 9.0\n"], [], 2, parse);
            r.Ok? && Store.Len(r.value) == 1 && Store.Lookup(r.value, "foo") == Some([1.0, 2.0])
  {
    var file := ["2 2\n", "foo 1.0 2.0\n", "foo 9.0 9.0\n"];
    var a := Store.Record("foo", [1.0, 2.0]);
    var t := Store.Table(2, map[]);
    ExampleHeader(file);
    ExampleLines(file, parse);
    TwoLinesSameWord(file, LineParserFor(2, parse), a, Store.Record("foo", [9.0, 9.0]));
    Store.InsertOneRoundTrip(t, "foo", [1.0, 2.0]);
    LoadOfRecords(t, file, [], 2, parse, Header(2, 2), [a]);
  }

  /** With the header and the records known, the pass is the insert of those records alone. */
  lemma LoadOfRecords(t: Store.Table, file: seq<string>, categories: seq<string>, dEmb: nat, parse: RealParser,
                      h: Header, recs: seq<Store.Record>)
    requires ParseHeader(ReadLine(file, 0)) == Ok(h)
    requires ReadRecords(file, 0, LinesToRead(h), LineParserFor(h.vectorSize, parse), {}, []) == Ok(recs)
    requires Store.InsertBatch(t, recs).Ok?
    ensures LoadWord2Emb(t, file, categories, dEmb, parse) == Ok(Store.InsertBatch(t, recs).value)
  {
    Categories.NoSyntheticWhenEmpty(categories, dEmb);
    assert recs + [] == recs;
    if |recs| == 0 {
      assert Store.InsertBatch(t, recs) == Ok(t);
    }
  }

  /** A pass whose records the insert rejects fails with that insert's error. */
  lemma LoadOfFailingRecords(t: Store.Table, file: seq<string>, categories: seq<string>, dEmb: nat, parse: RealParser,
                             h: Header, recs: seq<Store.Record>)
    requires ParseHeader(ReadLine(file, 0)) == Ok(h)
    requires ReadRecords(file, 0, LinesToRead(h), LineParserFor(h.vectorSize, parse), {}, []) == Ok(recs)
    requires Store.InsertBatch(t, recs).Err?
    ensures LoadWord2Emb(t, file, categories, dEmb, parse) == Err(InsertError(Store.InsertBatch(t, recs).error))
  {
    Categories.NoSyntheticWhenEmpty(categories, dEmb);
    assert recs + [] == recs;
  }

  /**
   * A pass whose header promises more data lines than the input holds stops with
   * `EOFError` for the first missing line when every line before it is good, and inserts
   * nothing.
   */
  lemma LoadStopsAtEof(t: Store.Table, file: seq<string>, categories: seq<string>, dEmb: nat, parse: RealParser,
                       h: Header, m: nat)
    requires ParseHeader(ReadLine(file, 0)) == Ok(h)
    requires m < LinesToRead(h)
    requires forall l :: 0 <= l < m ==> LineOk(file, l, LineParserFor(h.vectorSize, parse))
    requires ReadLine(file, m + 1) == ""
    ensures LoadWord2Emb(t, file, categories, dEmb, parse) == Err(UnexpectedEof(m))
  {
    var lp := LineParserFor(h.vectorSize, parse);
    ParseAllStopsAtEof(file, 0, LinesToRead(h), lp, m);
    ReadRecordsIsParseThenDedup(file, 0, LinesToRead(h), lp, {}, []);
  }

  /** Two good data lines for the same word: only the first one's record is kept. */
  lemma TwoLinesSameWord(file: seq<string>, lp: LineParser, a: Store.Record, b: Store.Record)
    requires a.word == b.word
    requires ReadData(file, 0, lp) == Ok(a)
    requires ReadData(file, 1, lp) == Ok(b)
    ensures ReadRecords(file, 0, 2, lp, {}, []) == Ok([a])
  {
    assert ReadRecords(file, 2, 2, lp, {a.word}, [a]) == Ok([a]);
    assert ReadRecords(file, 1, 2, lp, {a.word}, [a]) == Ok([a]);
    assert [] + [a] == [a];
  }

  lemma ExampleHeader(file: seq<string>)
    requires |file| > 0 && file[0] == "2 2\n"
    ensures ParseHeader(ReadLine(file, 0)) == Ok(Header(2, 2))
    ensures LinesToRead(Header(2, 2)) == 2
  {
    assert Show(2) == "2";
    HeaderRoundTrip(2, 2);
    assert ShowInt(2) + " " + ShowInt(2) + "\n" == file[0];
  }

  lemma ExampleLines(file: seq<string>, parse: RealParser)
    requires file == ["2 2\n", "foo 1.0 2.0\n", "foo 9.0 9.0\n"]
    requires parse("1.0") == Some(1.0) && parse("2.0") == Some(2.0) && parse("9.0") == Some(9.0)
    ensures ReadData(file, 0, LineParserFor(2, parse)) == Ok(Store.Record("foo", [1.0, 2.0]))
    ensures ReadData(file, 1, LineParserFor(2, parse)) == Ok(Store.Record("foo", [9.0, 9.0]))
  {
    JoinThree("foo", "1.0", "2.0");
    JoinThree("foo", "9.0", "9.0");
    assert "foo" + " " + "1.0" + " " + "2.0" + "\n" == file[1];
    assert "foo" + " " + "9.0" + " " + "9.0" + "\n" == file[2];
    ExampleLine(file, 0, "1.0", "2.0", 1.0, 2.0, parse);
    ExampleLine(file, 1, "9.0", "9.0", 9.0, 9.0, parse);
  }

  /** A data line "foo <t0> <t1>\n" whose two tokens parse. */
  lemma ExampleLine(file: seq<string>, l: nat, t0: string, t1: string, v0: real, v1: real, parse: RealParser)
    requires ' ' !in t0 && ' ' !in t1 && |t1| > 0 && !IsByteSpace(t1[|t1| - 1])
    requires l + 1 < |file| && file[l + 1] == Join(["foo", t0, t1], ' ') + "\n"
    requires parse(t0) == Some(v0) && parse(t1) == Some(v1)
    ensures ReadData(file, l, LineParserFor(2, parse)) == Ok(Store.Record("foo", [v0, v1]))
  {
    assert ' ' !in "foo";
    assert ["foo"] + [t0, t1] == ["foo", t0, t1];
    LineRoundTrip("foo", [t0, t1], [v0, v1], "\n", l, parse);
    assert ReadLine(file, l + 1) == file[l + 1];
  }

  /**
   * "2 2" promises two data lines; with only one present, loading stops with `EOFError`
   * for data line 1 and inserts nothing.
   */
  lemma TruncatedExample(t: Store.Table, categories: seq<string>, dEmb: nat, parse: RealParser)
    requires parse("1.0") == Some(1.0) && parse("2.0") == Some(2.0)
    ensures LoadWord2Emb(t, ["2 2\n", "foo 1.0 2.0\n"], categories, dEmb, parse) == Err(UnexpectedEof(1))
  {
    var file := ["2 2\n", "foo 1.0 2.0\n"];
    var lp := LineParserFor(2, parse);
    ExampleHeader(file);
    JoinThree("foo", "1.0", "2.0");
    assert "foo" + " " + "1.0" + " " + "2.0" + "\n" == file[1];
    ExampleLine(file, 0, "1.0", "2.0", 1.0, 2.0, parse);
    TruncatedExampleRead(file, lp);
  }

  lemma TruncatedExampleRead(file: seq<string>, lp: LineParser)
    requires |file| == 2 && LineOk(file, 0, lp)
    ensures ReadRecords(file, 0, 2, lp, {}, []) == Err(UnexpectedEof(1))
  {
    ParseAllStopsAtEof(file, 0, 2, lp, 1);
    ReadRecordsIsParseThenDedup(file, 0, 2, lp, {}, []);
  }

  /**
   * "1 0" promises one data line with no components: "foo" reads as an empty vector, and
   * the insert fails at `emb[0]` before its transaction starts.
   */
  lemma EmptyVectorExample(parse: RealParser)
    ensures LoadWord2Emb(Store.Table(300, map[]), ["1 0\n", "foo\n"], [], 300, parse)
              == Err(InsertError(Store.EmptyVector(0)))
  {
    var file := ["1 0\n", "foo\n"];
    var rec := Store.Record("foo", []);
    OneZeroHeader(file);
    EmptyVectorLine(file, parse);
    OneLineRead(file, LineParserFor(0, parse), rec);
    assert Store.FirstEmpty([rec]) == 0;
    LoadOfFailingRecords(Store.Table(300, map[]), file, [], 300, parse, Header(1, 0), [rec]);
  }

  lemma OneZeroHeader(file: seq<string>)
    requires |file| > 0 && file[0] == "1 0\n"
    ensures ParseHeader(ReadLine(file, 0)) == Ok(Header(1, 0))
    ensures LinesToRead(Header(1, 0)) == 1
  {
    assert Show(1) == "1" && Show(0) == "0";
    HeaderRoundTrip(1, 0);
    assert ShowInt(1) + " " + ShowInt(0) + "\n" == file[0];
  }

  /** A single good data line is read as a batch of its one record. */
  lemma OneLineRead(file: seq<string>, lp: LineParser, rec: Store.Record)
    requires ReadData(file, 0, lp) == Ok(rec)
    ensures ReadRecords(file, 0, 1, lp, {}, []) == Ok([rec])
  {
    assert ReadRecords(file, 1, 1, lp, {rec.word}, [rec]) == Ok([rec]);
    assert [] + [rec] == [rec];
  }

  lemma EmptyVectorLine(file: seq<string>, parse: RealParser)
    requires |file| == 2 && file[1] == "foo\n"
    ensures ReadData(file, 0, LineParserFor(0, parse)) == Ok(Store.Record("foo", []))
  {
    assert ' ' !in "foo";
    assert Join(["foo"] + [], ' ') == "foo";
    LineRoundTrip("foo", [], [], "\n", 0, parse);
    assert ReadLine(file, 1) == "foo" + "\n";
  }

  lemma JoinThree(a: string, b: string, c: string)
    ensures Join([a, b, c], ' ') == a + " " + b + " " + c
  {
    assert [a, b, c][1..] == [b, c] && [b, c][1..] == [c];
    assert Join([c], ' ') == c;
    assert Join([b, c], ' ') == b + " " + c;
  }
}

=== FILE: schema.dfy ===
/**
 * The shape of the `embeddings` table: a text primary key `word` followed by `Width` real
 * columns `d0 .. d{Width-1}`, the INSERT statement's placeholder list, and the positional
 * binding of a stored row to those columns.
 */
module Schema {
  import opened Decimal
  import Text

  /** Number of vector columns: fixed in the CREATE, the INSERT and the SELECT. */
  const Width: nat := 300

  datatype ColumnType = TextPrimaryKey | Real

  datatype Column = Column(name: string, kind: ColumnType)

  /** One stored value: the key text or one vector component. */
  datatype Cell = TextCell(text: string) | RealCell(x: real)

  /** `'d' + str(i)`. */
  function ColumnName(i: nat): string {
    "d" + Show(i)
  }

  /** `['d' + str(x) for x in range(n)]`, the list used by both the CREATE and the SELECT. */
  function VectorColumns(n: nat): (cols: seq<string>)
    ensures |cols| == n
  {
    seq(n, (i: int) requires 0 <= i => ColumnName(i))
  }

  /** Every column name, the key first. */
  function ColumnNames(n: nat): (names: seq<string>)
    ensures |names| == n + 1
  {
    ["word"] + VectorColumns(n)
  }

  /** `create table if not exists embeddings(word text primary key, d0 REAL, ...)`. */
  function TableSchema(n: nat): (cols: seq<Column>)
    ensures |cols| == n + 1
  {
    [Column("word", TextPrimaryKey)] + seq(n, (i: int) requires 0 <= i => Column(ColumnName(i), Real))
  }

  predicate Distinct(names: seq<string>) {
    forall i, j :: 0 <= i < j < |names| ==> names[i] != names[j]
  }

  /**
   * The created table has the primary key `word` followed by exactly `n` real columns named
   * `d0 .. d{n-1}` in ascending order, and no two columns share a name.
   */
  lemma SchemaShape(n: nat)
    ensures TableSchema(n)[0] == Column("word", TextPrimaryKey)
    ensures forall i :: 0 <= i < n ==> TableSchema(n)[i + 1] == Column("d" + Show(i), Real)
    ensures forall k :: 0 <= k <= n ==> TableSchema(n)[k].name == ColumnNames(n)[k]
    ensures Distinct(ColumnNames(n))
  {
    ColumnNamesDistinct(n);
  }

  lemma ColumnNamesDistinct(n: nat)
    ensures Distinct(ColumnNames(n))
  {
    var names := ColumnNames(n);
    forall i, j | 0 <= i < j < |names|
      ensures names[i] != names[j]
    {
      if i == 0 {
        assert names[j][0] == 'd';
      } else {
        assert names[i] == "d" + Show(i - 1) && names[j] == "d" + Show(j - 1);
        if names[i] == names[j] {
          assert names[i][1..] == Show(i - 1) && names[j][1..] == Show(j - 1);
          ShowInjective(i - 1, j - 1);
        }
      }
    }
  }

  /** `', ?' * n`. */
  function Repeat(s: string, n: nat): string {
    if n == 0 then "" else s + Repeat(s, n - 1)
  }

  /** `"(? {})".format(''.join([', ?' for x in range(n)]))`, the VALUES list of the INSERT. */
  function Placeholders(n: nat): string {
    "(? " + Repeat(", ?", n) + ")"
  }

  lemma {:induction false} CountAppend(a: string, b: string, c: char)
    ensures Text.Count(a + b, c) == Text.Count(a, c) + Text.Count(b, c)
  {
    if |a| > 0 {
      assert (a + b)[1..] == a[1..] + b;
      CountAppend(a[1..], b, c);
    } else {
      assert a + b == b;
    }
  }

  /** The INSERT statement has one placeholder for the key and one per vector column. */
  lemma {:induction false} PlaceholderCount(n: nat)
    ensures Text.Count(Placeholders(n), '?') == n + 1
  {
    RepeatCount(n);
    CountAppend("(? " + Repeat(", ?", n), ")", '?');
    CountAppend("(? ", Repeat(", ?", n), '?');
  }

  lemma {:induction false} RepeatCount(n: nat)
    ensures Text.Count(Repeat(", ?", n), '?') == n
  {
    if n > 0 {
      RepeatCount(n - 1);
      CountAppend(", ?", Repeat(", ?", n - 1), '?');
    }
  }

  /** The components as stored cells, in order. */
  function RealCells(v: seq<real>): (cells: seq<Cell>)
    ensures |cells| == |v|
  {
    seq(|v|, (i: int) requires 0 <= i < |v| => RealCell(v[i]))
  }

  /**
   * `(word, emb[0]) + tuple(emb[1:])`: the parameter tuple of one row. Indexing `emb[0]`
   * needs a non-empty vector.
   */
  function Binarize(word: string, emb: seq<real>): (row: seq<Cell>)
    requires |emb| >= 1
    ensures row == [TextCell(word)] + RealCells(emb)
  {
    [TextCell(word), RealCell(emb[0])] + RealCells(emb[1..])
  }

  /** Positional binding of a parameter tuple to the named columns of the table. */
  function Bind(names: seq<string>, values: seq<Cell>): (row: map<string, Cell>)
    requires |names| == |values|
    requires Distinct(names)
    ensures forall k :: 0 <= k < |names| ==> names[k] in row && row[names[k]] == values[k]
  {
    map k | 0 <= k < |names| :: names[k] := values[k]
  }

  /** `select <names> from ...`: the named columns of a row, in the order asked for. */
  function Project(row: map<string, Cell>, names: seq<string>): (cells: seq<Cell>)
    requires forall k :: 0 <= k < |names| ==> names[k] in row
    ensures |cells| == |names|
  {
    seq(|names|, (k: int) requires 0 <= k < |names| => row[names[k]])
  }

  /**
   * A row inserted as `(word, emb[0], ..., emb[n-1])` and read back with
   * `select d0, ..., d{n-1}` yields exactly the components of `emb`, in order.
   */
  lemma RowRoundTrip(word: string, emb: seq<real>)
    requires |emb| >= 1
    ensures Distinct(ColumnNames(|emb|))
    ensures var row := Bind(ColumnNames(|emb|), Binarize(word, emb));
            (forall k :: 0 <= k < |emb| ==> VectorColumns(|emb|)[k] in row) &&
            Project(row, VectorColumns(|emb|)) == RealCells(emb)
            && "word" in row && row["word"] == TextCell(word)
  {
    var n := |emb|;
    ColumnNamesDistinct(n);
    var names := ColumnNames(n);
    var row := Bind(names, Binarize(word, emb));
    forall k | 0 <= k < n
      ensures VectorColumns(n)[k] in row && row[VectorColumns(n)[k]] == RealCell(emb[k])
    {
      assert names[k + 1] == VectorColumns(n)[k];
    }
    assert names[0] == "word";
  }
}

=== FILE: store.dfy ===
/**
 * The `embeddings` table as a value: a map from word to its vector, with the operations of
 * the `Embedding` class (create-if-missing, `insert_batch`, `lookup`, `__contains__`,
 * `clear`, `__len__`). A batch is one transaction: it either lands whole or not at all.
 */
module Store {
  import opened Wrappers
  import Schema

  /** One `(word, emb)` pair of a batch. */
  datatype Record = Record(word: string, vec: seq<real>)

  /**
   * The table contents; `width` is the number of vector columns. The source's INSERT and
   * SELECT hard-code 300 columns, which agrees with `width` for every table this model
   * creates (`InitializeDb(None)`).
   */
  datatype Table = Table(width: nat, rows: map<string, seq<real>>)

  /** Why the engine rejected a row of a batch. */
  datatype Cause =
    | ArityMismatch(word: string, values: nat)  // the row's value count differs from the placeholder count
    | DuplicateKey(word: string)                // primary-key clash with a stored or an earlier batch row

  datatype Error =
    | EmptyVector(index: nat)                            // `emb[0]` on an empty vector, before the transaction
    | InsertFailed(attempted: seq<string>, cause: Cause) // reported with the batch's words, then re-raised

  /** Every stored vector has one component per vector column. */
  predicate Valid(t: Table) {
    forall w :: w in t.rows ==> |t.rows[w]| == t.width
  }

  function BatchWords(batch: seq<Record>): (ws: seq<string>)
    ensures |ws| == |batch|
    ensures forall i :: 0 <= i < |batch| ==> ws[i] == batch[i].word
  {
    seq(|batch|, (i: int) requires 0 <= i < |batch| => batch[i].word)
  }

  lemma BatchWordsAppend(a: seq<Record>, b: seq<Record>)
    ensures BatchWords(a + b) == BatchWords(a) + BatchWords(b)
  {
    var ab := a + b;
    forall i | 0 <= i < |ab| ensures BatchWords(ab)[i] == (BatchWords(a) + BatchWords(b))[i]
    {
      if i < |a| {
        assert ab[i] == a[i];
      } else {
        assert ab[i] == b[i - |a|];
      }
    }
  }

  predicate DistinctWords(batch: seq<Record>) {
    forall i, j :: 0 <= i < j < |batch| ==> batch[i].word != batch[j].word
  }

  /** What a batch needs to commit: well-sized vectors, no key twice, no key already stored. */
  predicate Insertable(t: Table, batch: seq<Record>) {
    && (forall i :: 0 <= i < |batch| ==> |batch[i].vec| >= 1 && |batch[i].vec| == t.width)
    && DistinctWords(batch)
    && (forall i :: 0 <= i < |batch| ==> batch[i].word !in t.rows)
  }

  /** `initialize_db`: the table is created only when absent; an existing one is kept as is. */
  function InitializeDb(db: Option<Table>): (t: Table)
    ensures db.None? ==> t == Table(Schema.Width, map[])
    ensures db.Some? ==> t == db.value
    ensures db.None? ==> Valid(t) && |t.rows| == 0
  {
    if db.Some? then db.value else Table(Schema.Width, map[])
  }

  /** The rows after every record of a batch has been written, in order. */
  function AddAll(rows: map<string, seq<real>>, batch: seq<Record>): map<string, seq<real>>
    decreases |batch|
  {
    if |batch| == 0 then rows else AddAll(rows[batch[0].word := batch[0].vec], batch[1..])
  }

  lemma {:induction false} AddAllAppend(rows: map<string, seq<real>>, b1: seq<Record>, b2: seq<Record>)
    ensures AddAll(rows, b1 + b2) == AddAll(AddAll(rows, b1), b2)
    decreases |b1|
  {
    if |b1| > 0 {
      assert (b1 + b2)[1..] == b1[1..] + b2;
      AddAllAppend(rows[b1[0].word := b1[0].vec], b1[1..], b2);
    } else {
      assert b1 + b2 == b2;
    }
  }

  /** Writing a batch stores exactly the old keys plus the batch's keys. */
  lemma {:induction false} AddAllKeys(rows: map<string, seq<real>>, batch: seq<Record>)
    ensures forall w :: w in AddAll(rows, batch) <==> w in rows || w in BatchWords(batch)
    decreases |batch|
  {
    if |batch| > 0 {
      AddAllKeys(rows[batch[0].word := batch[0].vec], batch[1..]);
      assert BatchWords(batch) == [batch[0].word] + BatchWords(batch[1..]);
    }
  }

  /** A key the batch does not mention keeps its old row. */
  lemma {:induction false} AddAllKeeps(rows: map<string, seq<real>>, batch: seq<Record>, w: string)
    requires w in rows && w !in BatchWords(batch)
    ensures w in AddAll(rows, batch) && AddAll(rows, batch)[w] == rows[w]
    decreases |batch|
  {
    if |batch| > 0 {
      assert BatchWords(batch) == [batch[0].word] + BatchWords(batch[1..]);
      AddAllKeeps(rows[batch[0].word := batch[0].vec], batch[1..], w);
    }
  }

  /** With pairwise-distinct keys each batch key ends up holding its own vector. */
  lemma {:induction false} AddAllValue(rows: map<string, seq<real>>, batch: seq<Record>, i: nat)
    requires DistinctWords(batch) && i < |batch|
    ensures batch[i].word in AddAll(rows, batch) && AddAll(rows, batch)[batch[i].word] == batch[i].vec
    decreases |batch|
  {
    var rows' := rows[batch[0].word := batch[0].vec];
    if i == 0 {
      assert batch[0].word !in BatchWords(batch[1..]);
      AddAllKeeps(rows', batch[1..], batch[0].word);
    } else {
      assert batch[1..][i - 1] == batch[i];
      AddAllValue(rows', batch[1..], i - 1);
    }
  }

  /** Fresh, pairwise-distinct keys raise the row count by the batch length. */
  lemma {:induction false} AddAllSize(rows: map<string, seq<real>>, batch: seq<Record>)
    requires DistinctWords(batch)
    requires forall i :: 0 <= i < |batch| ==> batch[i].word !in rows
    ensures |AddAll(rows, batch)| == |rows| + |batch|
    decreases |batch|
  {
    if |batch| > 0 {
      var rows' := rows[batch[0].word := batch[0].vec];
      forall i | 0 <= i < |batch| - 1 ensures batch[1..][i].word !in rows'
      {
        assert batch[1..][i] == batch[i + 1];
      }
      AddAllSize(rows', batch[1..]);
    }
  }

  /**
   * `executemany` inside the open transaction: rows are written in order into the
   * transaction's view `rows`; the first row the engine rejects aborts the whole statement.
   */
  function Execute(rows: map<string, seq<real>>, width: nat, batch: seq<Record>): (r: Result<map<string, seq<real>>, Cause>)
    ensures r.Ok? ==> rows.Keys <= r.value.Keys && |r.value| == |rows| + |batch|
    ensures r.Err? && r.error.ArityMismatch? ==> r.error.values != width + 1
    decreases |batch|
  {
    if |batch| == 0 then Ok(rows)
    else
      var rec := batch[0];
      if |rec.vec| != width then Err(ArityMismatch(rec.word, |rec.vec| + 1))
      else if rec.word in rows then Err(DuplicateKey(rec.word))
      else Execute(rows[rec.word := rec.vec], width, batch[1..])
  }

  /** What `executemany` needs: every row matches the placeholders and every key is new and unique. */
  predicate Fits(rows: map<string, seq<real>>, width: nat, batch: seq<Record>) {
    && (forall i :: 0 <= i < |batch| ==> |batch[i].vec| == width)
    && DistinctWords(batch)
    && (forall i :: 0 <= i < |batch| ==> batch[i].word !in rows)
  }

  /**
   * `executemany` succeeds exactly when the batch fits the transaction's view, and then the
   * view holds the old rows plus the batch.
   */
  lemma {:induction false} ExecuteOk(rows: map<string, seq<real>>, width: nat, batch: seq<Record>)
    ensures Execute(rows, width, batch).Ok? <==> Fits(rows, width, batch)
    ensures Execute(rows, width, batch).Ok? ==> Execute(rows, width, batch).value == AddAll(rows, batch)
    decreases |batch|
  {
    if |batch| > 0 {
      var rec := batch[0];
      if |rec.vec| == width && rec.word !in rows {
        var rows' := rows[rec.word := rec.vec];
        ExecuteOk(rows', width, batch[1..]);
        FitsStep(rows, width, batch);
      }
    }
  }

  /** Once the first row is written, the rest must fit the enlarged view. */
  lemma FitsStep(rows: map<string, seq<real>>, width: nat, batch: seq<Record>)
    requires |batch| > 0 && |batch[0].vec| == width && batch[0].word !in rows
    ensures Fits(rows, width, batch) <==> Fits(rows[batch[0].word := batch[0].vec], width, batch[1..])
  {
    var rec, rest := batch[0], batch[1..];
    var rows' := rows[rec.word := rec.vec];
    assert forall i :: 0 <= i < |rest| ==> rest[i] == batch[i + 1];
    if Fits(rows', width, rest) {
      forall i, j | 0 <= i < j < |batch| ensures batch[i].word != batch[j].word
      {
        if i > 0 {
          assert rest[i - 1].word != rest[j - 1].word;
        } else {
          assert rest[j - 1].word !in rows';
        }
      }
    }
    if Fits(rows, width, batch) {
      forall i | 0 <= i < |rest| ensures rest[i].word !in rows'
      {
        assert batch[0].word != batch[i + 1].word;
      }
    }
  }

  /**
   * The cause `executemany` reports names an offending row of the batch: a vector whose
   * value count misses the placeholders, or a key already stored or repeated in the batch.
   */
  lemma ExecuteCause(rows: map<string, seq<real>>, width: nat, batch: seq<Record>)
    requires Execute(rows, width, batch).Err?
    ensures var c := Execute(rows, width, batch).error;
            && (c.ArityMismatch? ==>
                  exists i :: 0 <= i < |batch| && batch[i].word == c.word
                              && c.values == |batch[i].vec| + 1 != width + 1)
            && (c.DuplicateKey? ==>
                  && c.word in BatchWords(batch)
                  && (c.word in rows || exists i, j :: 0 <= i < j < |batch| && batch[i].word == batch[j].word == c.word))
  {
    if Execute(rows, width, batch).error.ArityMismatch? {
      ExecuteArityCause(rows, width, batch);
    } else {
      ExecuteDuplicateCause(rows, width, batch);
    }
  }

  lemma {:induction false} ExecuteArityCause(rows: map<string, seq<real>>, width: nat, batch: seq<Record>)
    requires Execute(rows, width, batch).Err? && Execute(rows, width, batch).error.ArityMismatch?
    ensures var c := Execute(rows, width, batch).error;
            exists i :: 0 <= i < |batch| && batch[i].word == c.word && c.values == |batch[i].vec| + 1 != width + 1
    decreases |batch|
  {
    var rec := batch[0];
    if |rec.vec| == width && rec.word !in rows {
      var rest := batch[1..];
      var rows' := rows[rec.word := rec.vec];
      assert Execute(rows, width, batch) == Execute(rows', width, rest);
      ExecuteArityCause(rows', width, rest);
      var c := Execute(rows, width, batch).error;
      var i :| 0 <= i < |rest| && rest[i].word == c.word && c.values == |rest[i].vec| + 1 != width + 1;
      assert batch[i + 1] == rest[i];
    }
  }

  lemma {:induction false} ExecuteDuplicateCause(rows: map<string, seq<real>>, width: nat, batch: seq<Record>)
    requires Execute(rows, width, batch).Err? && Execute(rows, width, batch).error.DuplicateKey?
    ensures var c := Execute(rows, width, batch).error;
            && c.word in BatchWords(batch)
            && (c.word in rows || exists i, j :: 0 <= i < j < |batch| && batch[i].word == batch[j].word == c.word)
    decreases |batch|
  {
    var rec := batch[0];
    if |rec.vec| != width || rec.word in rows {
      assert BatchWords(batch)[0] == rec.word;
    } else {
      var rest := batch[1..];
      var rows' := rows[rec.word := rec.vec];
      assert Execute(rows, width, batch) == Execute(rows', width, rest);
      ExecuteDuplicateCause(rows', width, rest);
      var c := Execute(rows, width, batch).error;
      assert forall i :: 0 <= i < |rest| ==> rest[i] == batch[i + 1];
      assert BatchWords(rest)[..] == BatchWords(batch)[1..];
      if c.word in rows' && c.word !in rows {
        assert c.word == rec.word;
        var k :| 0 <= k < |rest| && BatchWords(rest)[k] == c.word;
        assert batch[0].word == batch[k + 1].word;
      } else if c.word !in rows {
        var i, j :| 0 <= i < j < |rest| && rest[i].word == rest[j].word == c.word;
        assert batch[i + 1].word == batch[j + 1].word;
      }
    }
  }

  /** Index of the first record with an empty vector, or `|batch|` when there is none. */
  function FirstEmpty(batch: seq<Record>): (k: nat)
    ensures k <= |batch|
    ensures forall i :: 0 <= i < k ==> |batch[i].vec| > 0
    ensures k < |batch| ==> |batch[k].vec| == 0
  {
    if |batch| == 0 || |batch[0].vec| == 0 then 0 else 1 + FirstEmpty(batch[1..])
  }

  /**
   * `insert_batch`: binarize every record, then BEGIN, `executemany`, COMMIT. On success the
   * table holds the old rows plus the batch; on any failure the caller's table is unchanged
   * (nothing was committed) and the error carries the batch's words.
   */
  function InsertBatch(t: Table, batch: seq<Record>): (r: Result<Table, Error>)
    ensures r.Ok? <==> Insertable(t, batch)
    ensures r.Ok? ==> r.value == Table(t.width, AddAll(t.rows, batch))
    ensures r.Err? && r.error.EmptyVector? ==> r.error.index < |batch| && |batch[r.error.index].vec| == 0
    ensures r.Err? && r.error.InsertFailed? ==> r.error.attempted == BatchWords(batch)
  {
    var k := FirstEmpty(batch);
    if k < |batch| then Err(EmptyVector(k))
    else
      ExecuteOk(t.rows, t.width, batch);
      match Execute(t.rows, t.width, batch)
      case Ok(rows) => Ok(Table(t.width, rows))
      case Err(cause) => Err(InsertFailed(BatchWords(batch), cause))
  }

  /**
   * A committed batch adds exactly its own words, each with its vector, keeps every other
   * row, raises the count by the batch length and keeps every vector the table's width.
   */
  lemma InsertBatchEffect(t: Table, batch: seq<Record>)
    requires InsertBatch(t, batch).Ok?
    ensures var t' := InsertBatch(t, batch).value;
            && t'.width == t.width
            && (forall w :: w in t'.rows <==> w in t.rows || w in BatchWords(batch))
            && (forall i :: 0 <= i < |batch| ==> t'.rows[batch[i].word] == batch[i].vec)
            && (forall w :: w in t.rows ==> t'.rows[w] == t.rows[w])
            && |t'.rows| == |t.rows| + |batch|
            && (Valid(t) ==> Valid(t'))
  {
    var t' := InsertBatch(t, batch).value;
    AddAllKeys(t.rows, batch);
    AddAllSize(t.rows, batch);
    forall i | 0 <= i < |batch| ensures t'.rows[batch[i].word] == batch[i].vec
    {
      AddAllValue(t.rows, batch, i);
    }
    forall w | w in t.rows ensures t'.rows[w] == t.rows[w]
    {
      assert forall i :: 0 <= i < |batch| ==> BatchWords(batch)[i] != w;
      AddAllKeeps(t.rows, batch, w);
    }
    if Valid(t) {
      forall w | w in t'.rows ensures |t'.rows[w]| == t'.width
      {
        if w !in t.rows {
          var i :| 0 <= i < |batch| && batch[i].word == w;
          assert t'.rows[batch[i].word] == batch[i].vec;
        }
      }
    }
  }

  /** `lookup`: the exact-key point query; `None` for a word that is not stored. */
  function Lookup(t: Table, w: string): (r: Option<seq<real>>)
    ensures r.Some? <==> w in t.rows
    ensures r.Some? ==> r.value == t.rows[w]
    ensures Valid(t) && r.Some? ==> |r.value| == t.width
  {
    if w in t.rows then Some(t.rows[w]) else None
  }

  /** `w in store`, defined through `lookup`. */
  function Contains(t: Table, w: string): (b: bool)
    ensures b <==> w in t.rows
  {
    Lookup(t, w).Some?
  }

  /** `len(store)`: `select count(*)`. */
  function Len(t: Table): (n: nat)
    ensures n == 0 <==> t.rows == map[]
  {
    |t.rows|
  }

  /** `clear`: delete every row; the table and its shape stay. */
  function Clear(t: Table): (r: Table)
    ensures r.width == t.width && Valid(r)
    ensures forall w :: w !in r.rows
  {
    Table(t.width, map[])
  }

  /**
   * The value map abstracts the SQL row: a stored pair `(w, v)`, bound to the created
   * table's columns as `insert_batch` binds it and read back with `lookup`'s SELECT of
   * `d0 .. d{width-1}`, gives `w` in the key column and exactly the cells of `Lookup(t, w)`.
   */
  lemma StoredRowIsSelected(t: Table, w: string)
    requires Valid(t) && t.width >= 1 && w in t.rows
    ensures Lookup(t, w).Some? && |Lookup(t, w).value| == t.width
    ensures Schema.Distinct(Schema.ColumnNames(t.width))
    ensures forall k :: 0 <= k <= t.width ==> Schema.TableSchema(t.width)[k].name == Schema.ColumnNames(t.width)[k]
    ensures var row := Schema.Bind(Schema.ColumnNames(t.width), Schema.Binarize(w, t.rows[w]));
            && (forall k :: 0 <= k < t.width ==> Schema.VectorColumns(t.width)[k] in row)
            && Schema.Project(row, Schema.VectorColumns(t.width)) == Schema.RealCells(Lookup(t, w).value)
            && "word" in row && row["word"] == Schema.TextCell(w)
  {
    Schema.RowRoundTrip(w, t.rows[w]);
    Schema.SchemaShape(t.width);
  }

  /** After a successful insert each batch word reads back its vector; other words read as before. */
  lemma InsertThenLookup(t: Table, batch: seq<Record>, w: string)
    requires InsertBatch(t, batch).Ok?
    ensures forall i :: 0 <= i < |batch| && batch[i].word == w ==> Lookup(InsertBatch(t, batch).value, w) == Some(batch[i].vec)
    ensures w !in BatchWords(batch) ==> Lookup(InsertBatch(t, batch).value, w) == Lookup(t, w)
  {
    InsertBatchEffect(t, batch);
  }

  /** A single fresh, well-sized record round-trips through insert and lookup. */
  lemma InsertOneRoundTrip(t: Table, w: string, v: seq<real>)
    requires w !in t.rows && |v| == t.width >= 1
    ensures InsertBatch(t, [Record(w, v)]).Ok?
    ensures Lookup(InsertBatch(t, [Record(w, v)]).value, w) == Some(v)
    ensures Len(InsertBatch(t, [Record(w, v)]).value) == Len(t) + 1
  {
    InsertBatchEffect(t, [Record(w, v)]);
  }

  /** A batch with a word already stored, or repeated within it, fails as a whole. */
  lemma ConflictFailsBatch(t: Table, batch: seq<Record>, i: nat, j: nat)
    requires i < |batch| && j < |batch|
    requires batch[i].word in t.rows || (i != j && batch[i].word == batch[j].word)
    ensures InsertBatch(t, batch).Err?
  {
  }

  /** A batch with a vector of the wrong length fails as a whole. */
  lemma DimensionMismatchFailsBatch(t: Table, batch: seq<Record>, i: nat)
    requires i < |batch| && |batch[i].vec| != t.width
    ensures InsertBatch(t, batch).Err?
  {
  }

  /** A word that was never stored reads as `None`. */
  lemma LookupMissing(t: Table, w: string)
    requires w !in t.rows
    ensures Lookup(t, w) == None && !Contains(t, w)
  {
  }

  /** `w in store` holds exactly when `lookup(w)` is not `None`, exactly for the stored words. */
  lemma ContainsIffLookup(t: Table, w: string)
    ensures Contains(t, w) <==> Lookup(t, w) != None
    ensures Contains(t, w) <==> w in t.rows
  {
  }

  /** After `clear`, the count is 0 and every lookup is `None`; the shape is kept. */
  lemma ClearEmpties(t: Table, w: string)
    ensures Len(Clear(t)) == 0
    ensures Lookup(Clear(t), w) == None
    ensures Clear(t).width == t.width && Valid(Clear(t))
  {
  }

  /**
   * The flush the source leaves commented out: insert in consecutive batches of `size`.
   * Only the success path is modelled exactly: when a later slice fails the result is that
   * slice's error, and the table holding the slices already committed is not returned.
   */
  function InsertInBatches(t: Table, batch: seq<Record>, size: nat): (r: Result<Table, Error>)
    requires size > 0
    ensures |batch| == 0 ==> r == Ok(t)
    ensures r.Ok? ==> r.value.width == t.width
    decreases |batch|
  {
    if |batch| <= size then
      (if |batch| == 0 then Ok(t) else InsertBatch(t, batch))
    else
      match InsertBatch(t, batch[..size])
      case Ok(t') => InsertInBatches(t', batch[size..], size)
      case Err(e) => Err(e)
  }

  lemma InsertableSplit(t: Table, b1: seq<Record>, b2: seq<Record>)
    ensures Insertable(t, b1 + b2) <==>
              Insertable(t, b1) && Insertable(Table(t.width, AddAll(t.rows, b1)), b2)
  {
    if Insertable(t, b1) && Insertable(Table(t.width, AddAll(t.rows, b1)), b2) {
      InsertableJoin(t, b1, b2);
    }
    if Insertable(t, b1 + b2) {
      InsertablePrefix(t, b1, b2);
      InsertableSuffix(t, b1, b2);
    }
  }

  lemma InsertableJoin(t: Table, b1: seq<Record>, b2: seq<Record>)
    requires Insertable(t, b1) && Insertable(Table(t.width, AddAll(t.rows, b1)), b2)
    ensures Insertable(t, b1 + b2)
  {
    var b := b1 + b2;
    var m := AddAll(t.rows, b1);
    AddAllKeys(t.rows, b1);
    forall i, j | 0 <= i < j < |b|
      ensures b[i].word != b[j].word
    {
      if i < |b1| && j >= |b1| {
        assert b[j] == b2[j - |b1|];
        assert b[i].word in m;
      }
    }
    forall i | 0 <= i < |b| ensures b[i].word !in t.rows
    {
      if i >= |b1| {
        assert b[i] == b2[i - |b1|];
      }
    }
  }

  lemma InsertablePrefix(t: Table, b1: seq<Record>, b2: seq<Record>)
    requires Insertable(t, b1 + b2)
    ensures Insertable(t, b1)
  {
    var b := b1 + b2;
    forall i | 0 <= i < |b1| ensures |b1[i].vec| >= 1 && |b1[i].vec| == t.width && b1[i].word !in t.rows
    {
      assert b1[i] == b[i];
    }
    forall i, j | 0 <= i < j < |b1| ensures b1[i].word != b1[j].word
    {
      assert b1[i] == b[i] && b1[j] == b[j];
    }
  }

  lemma InsertableSuffix(t: Table, b1: seq<Record>, b2: seq<Record>)
    requires Insertable(t, b1 + b2)
    ensures Insertable(Table(t.width, AddAll(t.rows, b1)), b2)
  {
    var b := b1 + b2;
    var m := AddAll(t.rows, b1);
    InsertablePrefix(t, b1, b2);
    AddAllKeys(t.rows, b1);
    forall i | 0 <= i < |b2|
      ensures b2[i].word !in m && |b2[i].vec| >= 1 && |b2[i].vec| == t.width
    {
      assert b2[i] == b[|b1| + i];
      assert forall k :: 0 <= k < |b1| ==> BatchWords(b1)[k] == b[k].word != b2[i].word;
    }
    forall i, j | 0 <= i < j < |b2| ensures b2[i].word != b2[j].word
    {
      assert b2[i] == b[|b1| + i] && b2[j] == b[|b1| + j];
    }
  }

  /**
   * Batch size never changes the outcome of an insert that fits in one transaction: when the
   * whole batch commits, committing it in slices of any size gives the same table, and the
   * sliced insert commits completely only when the single transaction would.
   */
  lemma {:induction false} BatchSizeIrrelevant(t: Table, batch: seq<Record>, size: nat)
    requires size > 0
    ensures InsertBatch(t, batch).Ok? && |batch| > 0 ==> InsertInBatches(t, batch, size) == InsertBatch(t, batch)
    ensures InsertInBatches(t, batch, size).Ok? && |batch| > 0 ==> InsertBatch(t, batch) == InsertInBatches(t, batch, size)
    decreases |batch|
  {
    if |batch| > size {
      var b1, b2 := batch[..size], batch[size..];
      assert batch == b1 + b2;
      InsertableSplit(t, b1, b2);
      AddAllAppend(t.rows, b1, b2);
      if InsertBatch(t, b1).Ok? {
        BatchSizeIrrelevant(InsertBatch(t, b1).value, b2, size);
      }
    }
  }

  /** One request to the store. */
  datatype Op =
    | InsertOp(batch: seq<Record>)
    | ClearOp
    | LookupOp(word: string)
    | ContainsOp(word: string)
    | LenOp

  datatype Reply =
    | Done
    | Failed(error: Error)
    | Found(vec: Option<seq<real>>)
    | Member(present: bool)
    | Size(count: nat)

  /** The store as a state machine: the table after a request, and the request's reply. */
  function Step(t: Table, op: Op): (r: (Table, Reply))
    ensures r.1.Failed? ==> r.0 == t
    ensures op.LookupOp? || op.ContainsOp? || op.LenOp? ==> r.0 == t
    ensures Valid(t) ==> Valid(r.0)
    ensures r.0.width == t.width
    ensures op.InsertOp? && r.1.Done? ==> Len(r.0) == Len(t) + |op.batch|
    ensures op.ClearOp? ==> r == (Table(t.width, map[]), Done)
    ensures op.ContainsOp? ==> r.1 == Member(op.word in t.rows)
    ensures op.LenOp? ==> r.1 == Size(|t.rows|)
    ensures op.LookupOp? ==> r.1.Found? && (r.1.vec.Some? <==> op.word in t.rows)
    ensures op.LookupOp? && op.word in t.rows ==> r.1.vec == Some(t.rows[op.word])
  {
    match op
    case InsertOp(batch) =>
      (match InsertBatch(t, batch)
       case Ok(t') => InsertBatchEffect(t, batch); (t', Done)
       case Err(e) => (t, Failed(e)))
    case ClearOp => (Clear(t), Done)
    case LookupOp(w) => (t, Found(Lookup(t, w)))
    case ContainsOp(w) => (t, Member(Contains(t, w)))
    case LenOp => (t, Size(Len(t)))
  }
}

=== FILE: text.dfy ===
/**
 * The string operations the ingestion pass relies on: `bytes.rstrip()`, `str.split(" ")`,
 * `str.split()` and the substring test `c in word`.
 */
module Text {

  /** Characters `bytes.rstrip()` removes: space, tab, newline, carriage return, VT and FF. */
  predicate IsByteSpace(c: char) {
    c == ' ' || 9 <= c as int <= 13
  }

  /**
   * Characters `str.isspace()` accepts, which is what `str.split()` splits on: the ASCII
   * whitespace, the separators 0x1C-0x1F, NEL, NO-BREAK SPACE and the Unicode space separators.
   */
  predicate IsSpace(c: char) {
    var n := c as int;
    || IsByteSpace(c)
    || 0x1C <= n <= 0x1F
    || n == 0x85 || n == 0xA0 || n == 0x1680
    || 0x2000 <= n <= 0x200A
    || n == 0x2028 || n == 0x2029 || n == 0x202F || n == 0x205F || n == 0x3000
  }

  /** `line.rstrip()`: drop the trailing run of ASCII whitespace, keep everything before it. */
  function RStrip(s: string): (r: string)
    ensures r <= s
    ensures |r| == 0 || !IsByteSpace(r[|r| - 1])
    ensures forall i :: |r| <= i < |s| ==> IsByteSpace(s[i])
  {
    if |s| > 0 && IsByteSpace(s[|s| - 1]) then RStrip(s[..|s| - 1]) else s
  }

  /** Number of occurrences of `c` in `s`. */
  function Count(s: string, c: char): nat {
    if |s| == 0 then 0 else (if s[0] == c then 1 else 0) + Count(s[1..], c)
  }

  /** `s.split(sep)` with a one-character separator: empty fields are kept. */
  function Split(s: string, sep: char): (r: seq<string>)
    ensures |r| >= 1
    ensures forall k :: 0 <= k < |r| ==> sep !in r[k]
  {
    if |s| == 0 then [""]
    else
      var rest := Split(s[1..], sep);
      if s[0] == sep then [""] + rest else [[s[0]] + rest[0]] + rest[1..]
  }

  /** `sep.join(parts)` for a non-empty list of parts. */
  function Join(parts: seq<string>, sep: char): string
    requires |parts| >= 1
  {
    if |parts| == 1 then parts[0] else parts[0] + [sep] + Join(parts[1..], sep)
  }

  /** Splitting yields one more field than there are separators. */
  lemma {:induction false} SplitLength(s: string, sep: char)
    ensures |Split(s, sep)| == Count(s, sep) + 1
  {
    if |s| > 0 {
      SplitLength(s[1..], sep);
    }
  }

  /** Joining the fields of a split gives back the original text. */
  lemma {:induction false} JoinSplit(s: string, sep: char)
    ensures Join(Split(s, sep), sep) == s
  {
    if |s| > 0 {
      var rest := Split(s[1..], sep);
      JoinSplit(s[1..], sep);
      if s[0] != sep {
        var r := Split(s, sep);
        assert r[1..] == rest[1..];
        if |rest| == 1 {
          assert Join(r, sep) == [s[0]] + rest[0];
        } else {
          assert Join(rest, sep) == rest[0] + [sep] + Join(rest[1..], sep);
          assert Join(r, sep) == [s[0]] + rest[0] + [sep] + Join(rest[1..], sep);
        }
      }
    }
  }

  /** Splitting a join of separator-free fields gives back exactly those fields. */
  lemma {:induction false} SplitJoin(parts: seq<string>, sep: char)
    requires |parts| >= 1
    requires forall k :: 0 <= k < |parts| ==> sep !in parts[k]
    ensures Split(Join(parts, sep), sep) == parts
  {
    if |parts| == 1 {
      SplitField(parts[0], [], sep);
      assert parts[0] + [] == parts[0];
    } else {
      SplitJoin(parts[1..], sep);
      SplitField(parts[0], [sep] + Join(parts[1..], sep), sep);
      assert parts[0] + [sep] + Join(parts[1..], sep) == parts[0] + ([sep] + Join(parts[1..], sep));
    }
  }

  /** A separator-free field in front of a separator (or of nothing) becomes one field. */
  lemma {:induction false} SplitField(w: string, t: string, sep: char)
    requires sep !in w
    requires |t| == 0 || t[0] == sep
    ensures |t| == 0 ==> Split(w + t, sep) == [w]
    ensures |t| > 0 ==> Split(w + t, sep) == [w] + Split(t[1..], sep)
  {
    if |w| == 0 {
      assert w + t == t;
    } else {
      assert (w + t)[1..] == w[1..] + t;
      SplitField(w[1..], t, sep);
      assert [w[0]] + w[1..] == w;
    }
  }

  /** `s.split()`: the maximal runs of non-whitespace characters, in order. */
  function Words(s: string): (r: seq<string>)
    ensures forall k :: 0 <= k < |r| ==> |r[k]| > 0 && forall j :: 0 <= j < |r[k]| ==> !IsSpace(r[k][j])
    ensures |s| > 0 && !IsSpace(s[0]) ==> |r| > 0 && r[0][0] == s[0]
  {
    if |s| == 0 then []
    else if IsSpace(s[0]) then Words(s[1..])
    else
      var rest := Words(s[1..]);
      if |s| > 1 && !IsSpace(s[1]) then [[s[0]] + rest[0]] + rest[1..] else [[s[0]]] + rest
  }

  predicate IsWord(w: string) {
    |w| > 0 && forall j :: 0 <= j < |w| ==> !IsSpace(w[j])
  }

  predicate AllSpace(t: string) {
    forall j :: 0 <= j < |t| ==> IsSpace(t[j])
  }

  /** A word followed by whitespace (or by nothing) is split off as one word. */
  lemma {:induction false} WordsPrefix(w: string, t: string)
    requires IsWord(w)
    requires |t| == 0 || IsSpace(t[0])
    ensures Words(w + t) == [w] + Words(t)
  {
    var s := w + t;
    assert s[1..] == w[1..] + t;
    if |w| == 1 {
      assert s[1..] == t;
      assert [s[0]] == w;
      assert |s| > 1 ==> IsSpace(s[1]);
    } else {
      WordsPrefix(w[1..], t);
      assert [w[0]] + w[1..] == w;
    }
  }

  /** Text made only of whitespace has no words. */
  lemma {:induction false} WordsOfSpace(t: string)
    requires AllSpace(t)
    ensures Words(t) == []
  {
    if |t| > 0 {
      WordsOfSpace(t[1..]);
    }
  }

  /** Words joined by single spaces, followed by any whitespace, split back into those words. */
  lemma {:induction false} WordsJoin(ws: seq<string>, t: string)
    requires |ws| >= 1
    requires forall k :: 0 <= k < |ws| ==> IsWord(ws[k])
    requires AllSpace(t)
    ensures Words(Join(ws, ' ') + t) == ws
  {
    if |ws| == 1 {
      WordsPrefix(ws[0], t);
      WordsOfSpace(t);
    } else {
      var tail := Join(ws[1..], ' ') + t;
      assert forall k :: 0 <= k < |ws| - 1 ==> ws[1..][k] == ws[k + 1];
      WordsJoin(ws[1..], t);
      assert Join(ws, ' ') + t == ws[0] + ([' '] + tail);
      WordsSpaced(ws[0], tail);
      assert [ws[0]] + ws[1..] == ws;
    }
  }

  /** A word, one space, then more text: the word comes first, then the words of the rest. */
  lemma WordsSpaced(w: string, tail: string)
    requires IsWord(w)
    ensures Words(w + ([' '] + tail)) == [w] + Words(tail)
  {
    WordsPrefix(w, [' '] + tail);
    assert ([' '] + tail)[1..] == tail;
  }

  /** Python's `needle in hay` for strings (the empty string is in every string). */
  predicate IsSubstring(needle: string, hay: string) {
    exists i :: 0 <= i <= |hay| - |needle| && OccursAt(needle, hay, i)
  }

  predicate OccursAt(needle: string, hay: string, i: int)
    requires 0 <= i <= |hay| - |needle|
  {
    hay[i..i + |needle|] == needle
  }
}

=== FILE: wrappers.dfy ===
/** Failure-carrying result types shared by the store and the ingestion pass. */
module Wrappers {

  /** An optional value: Python's `None` or a present value. */
  datatype Option<+T> = None | Some(value: T)

  /** Either a value or the exception the Python code would raise. */
  datatype Result<+T, +E> = Ok(value: T) | Err(error: E) {
    predicate IsFailure() {
      Err?
    }

    function PropagateFailure<U>(): Result<U, E>
      requires Err?
    {
      Err(error)
    }

    function Extract(): T
      requires Ok?
    {
      value
    }
  }
}
